=== FILE: README.md ===
# Photo Smart QR Code — a Dafny model of its pure core

The application puts QR codes on photos, makes short file names for uploads,
and drives an offline compiler for MindAR image targets. Around the image and
network work sits a set of small, deterministic decisions. This project
models those decisions in Dafny and proves what they guarantee:

- **`ensure_unique_filename`** (`Utils`). The filesystem is a finite set of
  existing paths. A free path comes back unchanged. A taken one becomes
  `stem(i)suffix` in the same directory, for the least free `i >= 1`. The
  search provably ends: `i` never passes `|existing| + 1`.
- **Short ids** (`ShortId`, built on `Numerals` and `Text`):
  - `_int_to_base62` is proved to round-trip with a base-62 decoder.
  - `_slugify` is modelled after its Unicode normalisation, which is a
    parameter of `build_safe_name`.
  - `random_code` and `hash_code_from_file` are modelled with the random
    draws and the SHA-256 digest as parameters.
  - `build_safe_name` assembles `[slug-]code.ext`.
- **Watermark geometry** (`ImageUtils`, `Actions`):
  - the corner fallback and the anchor per corner, in both copies of the
    placement code;
  - the rounding of side and margin;
  - the name of the saved image;
  - the alpha scaling of the artistic watermark;
  - the guards that decide which flow of `action_add_watermark_qr` runs.
- **`parseArgs` and `isSingleMind`** of `compile-offline.mjs`
  (`CompileOffline`). The left-to-right scan from index 2 pairs each flag
  with its value. The last `-o` wins, `--help` exits with 0, and a missing
  input or output exits with 2.

Modules follow the source files:

| module | file | models |
|---|---|---|
| `Text` | text.dfy | Python/JavaScript string built-ins: ASCII `lower`, `isspace`, `strip`, slicing, filtering, run-collapsing `re.sub` |
| `Wrappers` | wrappers.dfy | `Option` |
| `Numerals` | numerals.dfy | positional numerals over any digit alphabet (decimal counter, base 62) |
| `Paths` | paths.dfy | `pathlib`'s name, `stem`, `suffix`, `with_name` |
| `Utils` | utils.dfy | `utils/utils.py` |
| `ShortId` | shortid.dfy | `utils/shortid.py` |
| `ImageUtils` | imageutils.dfy | `utils/image_utils.py` |
| `Actions` | actions.dfy | `actions.py`, `action_add_watermark_qr` |
| `CompileOffline` | compile_offline.dfy | `tools/mindar_offline/compile-offline.mjs` |

Oracles and parameters:

- The existing files are a `set<Path>`.
- The SHA-256 digest is a natural number below 2^256, or `None` when the
  file does not exist.
- The Unicode normalisation of `_slugify` (NFKD, then combining marks
  dropped) is a function from strings to strings.
- The random draws of `secrets.choice` are a function from positions to
  indices below 62.
- The user's answers and whether the image generator produced an image are
  parameters of `Actions.Dispatch`.
- The float parameters 0.2, 0.02 and 0.90 are the exact fractions 1/5,
  1/50 and 9/10.

`add_qr_watermark` clamps nothing: `ImageUtils.InBoundsIff` states exactly
when the square fits, and `ImageUtils.NegativeAnchorExample` shows a
negative anchor.

## Model

| member | source | states |
|---|---|---|
| `Utils.UniqueFilename` | utils/utils.py:17-27 | the result is never an existing path and keeps the directory; a free path is returned unchanged; a taken one becomes `stem(i)suffix` for an `i` that is the least counter from 1 whose name is free |
| `Utils.EnsureUniqueFilename` | utils/utils.py:17-27 | the `while True` loop counting from 1 ends; it fails (the `ValueError` of `with_name`) exactly when the path exists and has an empty name; otherwise it returns a free path in the same directory, namely `UniqueFilename`'s least-free choice |
| `Utils.FirstFreeFrom` | utils/utils.py:22-27 | when every counter below `i` is taken, a least free counter exists at or after `i` and is at most `|existing| + 1`, which bounds the loop |
| `Utils.TakenBounded` | utils/utils.py:23-27 | if counters 1..k all name existing paths, at least k paths exist |
| `Utils.CandidateInjective` | utils/utils.py:24 | two different counters never give the same candidate name |
| `Utils.LeastFreeUnique` | utils/utils.py:22-27 | there is only one least free counter |
| `Utils.ResolvesTo` | utils/utils.py:21-27 | whichever counter is least free, the resolver returns that counter's candidate |
| `Utils.SplitOf` | utils/utils.py:21 | stem followed by suffix gives back the name; the directory is kept |
| `Utils.Candidate` | utils/utils.py:24 | the candidate stays in the directory, starts with `stem(`, ends with `)suffix`, and its length leaves room exactly for the counter's digits |
| `Utils.SplitOfDotted` | utils/utils.py:21 | a name `a.b` with no dot in `b` splits into stem `a` and suffix `.b` |
| `Utils.PhotoExample` | utils/utils.py:22-27 | with `photo.png` taken the result is `photo(1).png`; with `photo(1).png` also taken it is `photo(2).png` |
| `Paths.Suffix` | utils/utils.py:21 | `path.suffix` is empty or a dot followed by at least one dot-free character, is shorter than the name, and ends it |
| `Paths.Stem` | utils/utils.py:21 | the stem is a prefix of the name, non-empty for a non-empty name; when it is shorter, the name continues with a dot that is neither its first nor its last character |
| `Paths.StemSuffixSplit` | utils/utils.py:21 | `path.stem + path.suffix` is the name |
| `Paths.SplitAtLastDot` | utils/utils.py:21 | the stem of `a.b` is `a` and its suffix is `.b` when `a`, `b` are non-empty and `b` has no dot |
| `Numerals.Decimal` | utils/utils.py:24 | `f"{i}"` is a non-empty string of decimal digits |
| `Numerals.DecimalInjective` | utils/utils.py:24 | different counters are written differently |
| `Numerals.Encode` | utils/shortid.py:22-29 | the numeral is non-empty and uses only alphabet digits; it is the single zero digit exactly for 0; otherwise its first digit is not zero |
| `Numerals.DecodeEncode` | utils/shortid.py:22-29 | decoding the numeral of `n` gives `n` |
| `Numerals.EncodeDecode` | utils/shortid.py:22-29 | every canonical numeral is the encoding of its value, so encoding is a bijection onto canonical numerals |
| `Numerals.EncodeInjective` | utils/shortid.py:22-29 | different numbers have different numerals |
| `Numerals.DigitValue` | utils/shortid.py:26-28 | a digit's value is its first position in the alphabet |
| `ShortId.AlphabetValid` | utils/shortid.py:6 | `ALPHABET` has 62 distinct characters: digits, lower-case letters, upper-case letters, in that order |
| `ShortId.IntToBase62` | utils/shortid.py:22-29 | the divmod loop returns the base-62 numeral of `n`: `"0"` for 0, all characters from `ALPHABET`, decoding to `n`, no leading `'0'` for `n > 0` |
| `ShortId.SlugCore` | utils/shortid.py:12-15 | the cleaned text uses only `[a-z0-9-]`, has no `--`, and neither starts nor ends with `-` |
| `ShortId.Slugify` | utils/shortid.py:8-16 | the slug is non-empty, uses only `[a-z0-9-]`, has no `--`, does not start with `-`; it is `"file"` when the cleaned text is empty, the whole cleaned text when that fits, and exactly its first `max_len` characters when it is longer |
| `ShortId.CutKeeps` | utils/shortid.py:16 | cutting a clean slug keeps its alphabet, its single hyphens and its first character |
| `ShortId.SlugKeepsLettersAndDigits` | utils/shortid.py:12-15 | the letters and digits of the lower-cased text survive in order; every other character is dropped or rewritten |
| `ShortId.SeparatorBecomesHyphen` | utils/shortid.py:9-15 | a run of whitespace and underscores between two slugs becomes one `-`, and nothing else changes: `"a b"` and `"a__b"` give `"a-b"` |
| `Text.SubRunsJoin` | utils/shortid.py:13 | `re.sub(r"[\s_]+", "-", …)` replaces a non-empty run of separators between two separator-free parts by exactly one `-` |
| `ShortId.SlugFixed` | utils/shortid.py:12-15 | a clean slug is left unchanged by the cleaning |
| `ShortId.SlugCoreIdempotent` | utils/shortid.py:12-15 | cleaning twice is cleaning once |
| `ShortId.SlugifyOfSlug` | utils/shortid.py:16 | a clean slug is only cut to `max_len` |
| `ShortId.SlugMayEndWithHyphen` | utils/shortid.py:15-16 | the cut comes after the hyphen strip, so a cut just after a hyphen leaves a trailing `-` (`"ab-cd"` at 3 gives `"ab-"`) |
| `ShortId.RandomCode` | utils/shortid.py:18-20 | `random_code(k)` has length `max(k, 0)`; its `j`-th character is the `j`-th draw from `ALPHABET` |
| `ShortId.HashCodeFromFile` | utils/shortid.py:38-39 | the hash code is a prefix of the digest's base-62 numeral, of length `min(length, numeral length)` |
| `ShortId.HashLength` | utils/shortid.py:62 | `max(4, code_len // 2)` is at least 4, is 4 below 10, and from 8 on is the floor of half of `code_len` |
| `ShortId.HashPart` | utils/shortid.py:61-62 | there is a hash part exactly when the mode names `hash` and the file exists; it is a non-empty prefix of the digest's numeral of length `min(max(4, code_len // 2), numeral length)` |
| `ShortId.SafeCode` | utils/shortid.py:61-66 | the code uses only `ALPHABET`, is at most `code_len` long, and is exactly `code_len` long when the mode names `rand` or there is no hash part |
| `ShortId.AlphabetSafe` | utils/shortid.py:6 | base-62 digits are ASCII letters or digits and never `-` |
| `ShortId.BuildSafeName` | utils/shortid.py:54-67 | the name ends with code plus lower-cased suffix; with `include_slug` it starts with the slug of the normalised stem and `-`; its length is exactly slug and `-` (when included) plus code plus suffix, so it is `slug-code.ext` or `code.ext`; everything before the extension is safe; a `-` appears there exactly when the slug is included |
| `ShortId.NoHashMeansRandom` | utils/shortid.py:61-64 | without a hash part (mode without `hash`, or a missing file) the code is exactly the random code |
| `ShortId.HashPartLeads` | utils/shortid.py:61-66 | with a hash part the code starts with the (cut) hash part |
| `ShortId.HashOnlyLength` | utils/shortid.py:61-66 | in `hash` mode without `rand` the code has `min(code_len, max(4, code_len // 2), numeral length)` characters |
| `ShortId.HashModeIsDeterministic` | utils/shortid.py:61-67 | in `hash` mode without `rand` the name does not depend on the random draws |
| `ImageUtils.ResolveCorner` | utils/image_utils.py:27-34 | a valid corner name selects its own corner; any other string selects bottom-right |
| `ImageUtils.Place` | utils/image_utils.py:31-34 | the box keeps exactly `margin` pixels from the two edges that meet at its corner |
| `ImageUtils.WatermarkAnchor` | utils/image_utils.py:21-34 | the padded square `side + 2*border` sits `margin` pixels from both edges of the resolved corner |
| `ImageUtils.QrWatermarkAnchor` | utils/image_utils.py:16-34 | with side `round(W * size)`, border `int(side * 0.05)` and margin `round(min(W, H) * margin)`, the padded square sits that margin from both edges of the resolved corner |
| `ImageUtils.RoundHalfEven` | utils/image_utils.py:18-19 | `round` gives an integer within half a unit of the exact value, even at a tie |
| `ImageUtils.RoundHalfEvenUnique` | utils/image_utils.py:18-19 | that integer is the only one with those two properties |
| `ImageUtils.Pixels` | utils/image_utils.py:18-19 | `int(round(n * f))` is within half a pixel of the exact product and even at a tie |
| `ImageUtils.BorderPx` | utils/image_utils.py:22 | `int(side * 0.05)` is the largest `b` with `20*b <= side` |
| `ImageUtils.ThousandPixelScenario` | utils/image_utils.py:16-34 | a 1000 by 1000 image at size 0.2, margin 0.02: side 200, border 10, margin 20, bottom-right anchor (760, 760) |
| `ImageUtils.FallbackIsBottomRight` | utils/image_utils.py:27-29 | an unknown corner name is placed exactly as `"bottom-right"` |
| `ImageUtils.TopLeftIgnoresSizes` | utils/image_utils.py:34 | the top-left anchor is `(margin, margin)` whatever the sizes |
| `ImageUtils.SharedCoordinates` | utils/image_utils.py:31-34 | bottom-left shares x with top-left, top-right shares y with top-left, and likewise for bottom-right |
| `ImageUtils.InBoundsIff` | utils/image_utils.py:31-36 | the square lies inside the image exactly when the margin is non-negative and square plus margin fits both ways |
| `ImageUtils.NegativeAnchorExample` | utils/image_utils.py:31-36 | a 110-pixel padded square plus margin 2 on a 100-pixel image lands at (-12, -12), also for an unknown corner name |
| `ImageUtils.WatermarkOutputPath` | utils/image_utils.py:38-39 | the saved path is free, in the saved directory, and is `<stem>_watermarked.png` when that is free |
| `ImageUtils.WatermarkOutputName` | utils/image_utils.py:38-39 | when `<stem>_watermarked.png` is taken the name is `<stem>_watermarked(<i>).png` for the least free `i`, with the counter before `.png` |
| `Actions.ArtisticAnchor` | actions.py:79-82 | the `side` by `side` watermark is `margin` pixels from the edges of its corner; top-left, top-right and bottom-left as written; every other string takes bottom-right |
| `Actions.ArtisticWatermarkAnchor` | actions.py:74-82 | with the side and margin rounded from 0.2 and 0.02, the artistic anchor is the standard placement with no border |
| `Actions.ArtisticMatchesStandard` | actions.py:79-82 | for every position string the artistic anchor equals the standard anchor with no border |
| `Actions.ThousandPixelArtistic` | actions.py:76-82 | on a 1000 by 1000 base the artistic square lands at (780, 780), the bordered standard QR at (760, 760) |
| `Actions.ScaleAlpha` | actions.py:86-88 | `int(p * opacity)` is the floor of the exact product and never exceeds `p` when the opacity is at most 1 |
| `Actions.ScaleAlphaMonotone` | actions.py:87 | scaling keeps the order of alpha values |
| `Actions.ScaleAlphaExtremes` | actions.py:87 | opacity 1 keeps alpha and opacity 0 clears it |
| `Actions.OpaquePixelExample` | actions.py:46-87 | at opacity 0.90 an alpha of 255 becomes 229 |
| `Actions.Dispatch` | actions.py:35-69 | a missing base image or blank content aborts; the standard flow runs exactly when the prompt is blank; the artistic flow runs exactly when the prompt is not blank and an image was generated; the chosen position is never empty |
| `Actions.ChosenPosition` | actions.py:44 | the position is non-empty and has no surrounding white space; it is the stripped answer, or `"bottom-right"` when that is blank |
| `Actions.DispatchUsesPosition` | actions.py:44 | both flows use the stripped position answer, and a blank answer means `"bottom-right"` |
| `Actions.BlankPositionIsBottomRight` | actions.py:44-82 | with a blank position answer both flows put the watermark in the bottom-right corner |
| `CompileOffline.Scan` | tools/mindar_offline/compile-offline.mjs:32-40 | help can only be the last item, since the program exits there; every input and output value is non-empty |
| `CompileOffline.LastOutput` | tools/mindar_offline/compile-offline.mjs:35 | there is an output exactly when some output item was scanned, and it is one of them |
| `CompileOffline.InputsOf` | tools/mindar_offline/compile-offline.mjs:30-34 | the collected inputs are never more than the scanned items |
| `CompileOffline.InputsOfMembers` | tools/mindar_offline/compile-offline.mjs:30-34 | a value is among the inputs exactly when an `-i` item carrying it was scanned |
| `CompileOffline.Parse` | tools/mindar_offline/compile-offline.mjs:29-46 | exit 0 exactly when help is scanned; otherwise exit 2 exactly when no input or no output was scanned; a successful parse carries the scanned inputs, at least one, and the last scanned `-o` value as output |
| `CompileOffline.ParseArgs` | tools/mindar_offline/compile-offline.mjs:29-46 | the loop returns `Parse`'s outcome; it exits with 0 exactly when help is scanned; the returned inputs are the scanned ones, in order |
| `CompileOffline.FirstTwoIgnored` | tools/mindar_offline/compile-offline.mjs:32 | the interpreter and script tokens never change the outcome |
| `CompileOffline.ScanAppend` | tools/mindar_offline/compile-offline.mjs:32-40 | the scan of a command line read to its end, plus more tokens, is its own scan followed by the scan of the new tokens |
| `CompileOffline.InputsAppend` | tools/mindar_offline/compile-offline.mjs:34 | collected inputs keep the order of the items |
| `CompileOffline.LastOutputAppend` | tools/mindar_offline/compile-offline.mjs:35 | a later output item overrides every earlier one |
| `CompileOffline.InputAppends` | tools/mindar_offline/compile-offline.mjs:34 | appending `-i v` adds `v` as the last input and leaves the output alone |
| `CompileOffline.LastOutputWins` | tools/mindar_offline/compile-offline.mjs:35-45 | appending `-o v` makes `v` the output whatever came before; the outcome is exit 2 without inputs and the options otherwise |
| `CompileOffline.HelpWins` | tools/mindar_offline/compile-offline.mjs:36-39 | once help is scanned the exit code is 0, whatever tokens follow |
| `CompileOffline.TrailingFlagIgnored` | tools/mindar_offline/compile-offline.mjs:34-35 | a final flag with no value is passed over |
| `CompileOffline.ValueNotReread` | tools/mindar_offline/compile-offline.mjs:34-35 | in `-i -o x` the `-o` is an input and is not read as a flag, so there is no output and the exit code is 2 |
| `CompileOffline.SingleMindIff` | tools/mindar_offline/compile-offline.mjs:62 | `isSingleMind` holds exactly when there is one input ending in a dot and `mind` in any letter case |
| `CompileOffline.IsSingleMind` | tools/mindar_offline/compile-offline.mjs:62 | a single mind file is one input at least five characters long with a dot fifth from the end |

## Left out

- Image pixels are not modelled: opening and converting images, the LANCZOS resize, `ImageOps.expand`, `alpha_composite` and saving. Only sizes and positions are.
- Floats are exact fractions. Rounding is half-even on the exact value of `W * size` and `min(W, H) * margin`; the border is the exact floor of `side / 20`. Binary floating-point rounding of those products is not modelled.
- `ImageUtils.WatermarkAnchor` and `Actions.ArtisticAnchor` take `side`, the margin and the border as integers. The rounding that produces them is stated separately and composed (`RoundHalfEven`, `BorderPx`, `QrWatermarkAnchor`, `ArtisticWatermarkAnchor`).
- SHA-256 and the file reading of `hash_code_from_file` are not modelled: the digest is a parameter. So are `secrets.choice` draws: they are a function from positions to alphabet indices.
- `random_code`'s `alphabet` parameter is always `ALPHABET` here, as in its only caller.
- `_slugify`'s NFKD normalisation and removal of combining marks are not modelled: `Slugify` takes text that is already normalised, and `BuildSafeName` receives that step as a parameter `normalize` (for `café` it must give `cafe`).
- Lower-casing changes ASCII letters only, in Python and in JavaScript. The Unicode case mappings are not modelled.
- `Utils.UniqueFilename` requires a non-empty name when the path exists. `with_name` raises `ValueError` on an empty name, such as that of `.`. `Utils.EnsureUniqueFilename` returns `None` for that case.
- `path.exists()` is membership in the set of existing paths; directories, permissions and races between the test and the save are not modelled.
- `Paths.SuffixStart` follows the `suffix` rule of Python 3.12 and earlier: the last dot counts only when `0 < i < len(name) - 1`, so `a.` and `.bashrc` have no suffix. Later versions that treat a trailing dot differently are not modelled.
- `Numerals.Encode` and `ShortId.IntToBase62` take natural numbers. `_int_to_base62` never terminates on a negative `n`: `divmod(-1, 62)` is `(-1, 61)`, so `n` stays at -1. It is only called on a digest, which is never negative.
- The artistic output name `<stem>_art_watermark_<timestamp>.png` is not modelled: it depends on the clock. Its uniqueness step is the same `UniqueFilename`.
- The prompts, `validate_file_exists`, the `generate_artistic_qr` call and the `print` messages of `action_add_watermark_qr` are reduced to the answers and flags passed to `Actions.Dispatch`. The `try`/`except` blocks around the image work are not modelled.
- The help text and error messages of `parseArgs` are not modelled. `process.exit` is the `Exit` outcome.
- The rest of `compile-offline.mjs` is not modelled: the dynamic import of the compiler, image loading, compilation and file writing.
- Not part of this model: the rest of the repository. This covers the QR and artistic image generation (`ai_qr.py`, `utils/qr_utils.py`), the AR helpers (`utils/ar_utils.py`), the local HTTP server (`local_server.py`) and the menu (`main.py`).

=== FILE: actions.dfy ===
/** The decision logic and geometry of `action_add_watermark_qr`: which flow
    runs given the user's answers, where the artistic branch pastes its
    `side` by `side` watermark, and how it scales the watermark's alpha
    channel.  The prompts, the image generator and the pixel work are not
    modelled: the answers and the generator's success are parameters. */
module Actions {
  import opened Text
  import opened ImageUtils

  /** `(x, y)` of the artistic watermark on a `width` by `height` base: a
      `side` by `side` square kept `margin` pixels from the two edges of its
      corner, with no bounds check. */
  function ArtisticAnchor(width: nat, height: nat, side: nat, margin: int, position: string): (p: Point)
    ensures p.x == margin || p.x + side + margin == width
    ensures p.y == margin || p.y + side + margin == height
    ensures position == "top-left" ==> p == Point(margin, margin)
    ensures position == "top-right" ==> p == Point(width - side - margin, margin)
    ensures position == "bottom-left" ==> p == Point(margin, height - side - margin)
    ensures position !in {"top-left", "top-right", "bottom-left"}
            ==> p.x + side + margin == width && p.y + side + margin == height
  {
    if position == "top-left" then Point(margin, margin)
    else if position == "top-right" then Point(width - side - margin, margin)
    else if position == "bottom-left" then Point(margin, height - side - margin)
    else Point(width - side - margin, height - side - margin)
  }

  /** The action's fixed parameters: size 0.2, margin 0.02, opacity 0.90. */
  const SIZE: Ratio := Ratio(1, 5)
  const MARGIN: Ratio := Ratio(1, 50)
  const OPACITY: Ratio := Ratio(9, 10)

  /** The artistic anchor from the action's parameters: the side and the
      margin are rounded exactly as the standard flow rounds them, and the
      square is placed as the standard flow places a QR with no border. */
  function ArtisticWatermarkAnchor(width: nat, height: nat, position: string): (p: Point)
    ensures var side := Pixels(width, SIZE);
      var margin := Pixels(if width < height then width else height, MARGIN);
      p == WatermarkAnchor(width, height, side, 0, margin, position)
  {
    ArtisticMatchesStandard(width, height, Pixels(width, SIZE),
                            Pixels(if width < height then width else height, MARGIN), position);
    ArtisticAnchor(width, height, Pixels(width, SIZE), Pixels(if width < height then width else height, MARGIN), position)
  }

  /** On a 1000 by 1000 base the artistic square is 200 pixels wide with a
      20-pixel margin and lands at (780, 780) in the bottom-right corner,
      ten pixels a side further out than the bordered standard QR. */
  lemma ThousandPixelArtistic()
    ensures ArtisticWatermarkAnchor(1000, 1000, "bottom-right") == Point(780, 780)
    ensures QrWatermarkAnchor(1000, 1000, SIZE, MARGIN, "bottom-right") == Point(760, 760)
  {
    ThousandPixelScenario();
  }

  /** The two copies of the placement agree: for every position string the
      artistic anchor is the standard watermark's anchor with no white
      border.  The standard copy maps unknown names to bottom-right before
      its chain; the artistic copy reaches bottom-right by its final
      `else`; both routes end in the same corner. */
  lemma {:induction false} ArtisticMatchesStandard(width: nat, height: nat, side: nat, margin: int, position: string)
    ensures ArtisticAnchor(width, height, side, margin, position)
         == WatermarkAnchor(width, height, side, 0, margin, position)
  {
    var c := ResolveCorner(position);
    if position in VALID_CORNERS {
      assert CornerName(c) == position;
      match c
      case TopLeft =>
      case TopRight =>
      case BottomLeft =>
      case BottomRight =>
    }
  }

  /** `int(p * opacity)` for one alpha value `p`: the product truncated
      towards zero, which for a non-negative product is its floor. */
  function ScaleAlpha(p: nat, o: Ratio): (r: nat)
    requires 0 < o.den
    ensures r * o.den <= p * o.num < (r + 1) * o.den
    ensures o.num <= o.den ==> r <= p
  {
    var r := p * o.num / o.den;
    assert r * o.den + p * o.num % o.den == p * o.num;
    ScaledAtMost(p, o.num, o.den);
    r
  }

  lemma ScaledAtMost(p: nat, num: nat, den: nat)
    requires 0 < den
    ensures num <= den ==> p * num / den <= p
  {
    if num <= den {
      MulMonotone(num, den, p);
      assert p * num <= p * den;
      FloorBound(p * num, den, p);
    }
  }

  /** If `n <= m * d` then `n / d <= m`. */
  lemma {:induction false} FloorBound(n: nat, d: nat, m: nat)
    requires 0 < d && n <= m * d
    ensures n / d <= m
  {
    var q := n / d;
    assert q * d + n % d == n;
  }

  lemma {:induction false} MulMonotone(a: nat, b: nat, d: nat)
    requires a <= b
    ensures a * d <= b * d
  {
    if a < b {
      MulMonotone(a, b - 1, d);
      assert b * d == (b - 1) * d + d;
    }
  }

  /** Scaling keeps the order of alpha values. */
  lemma ScaleAlphaMonotone(p: nat, q: nat, o: Ratio)
    requires 0 < o.den && p <= q
    ensures ScaleAlpha(p, o) <= ScaleAlpha(q, o)
  {
    var rp, rq := ScaleAlpha(p, o), ScaleAlpha(q, o);
    MulMonotone(p, q, o.num);
    if rp > rq {
      MulMonotone(rq + 1, rp, o.den);
    }
  }

  /** Full opacity keeps every alpha value; zero opacity clears it. */
  lemma ScaleAlphaExtremes(p: nat, d: nat)
    requires 0 < d
    ensures ScaleAlpha(p, Ratio(d, d)) == p
    ensures ScaleAlpha(p, Ratio(0, d)) == 0
  {
    var r := ScaleAlpha(p, Ratio(d, d));
    if r < p {
      MulMonotone(r + 1, p, d);
    }
  }

  /** With the opacity `0.90` a fully opaque pixel keeps alpha 229. */
  lemma OpaquePixelExample()
    ensures ScaleAlpha(255, OPACITY) == 229
  {
  }

  /** The flow the answers lead to. */
  datatype Flow =
    | Abort
    | Standard(corner: string)
    | Artistic(position: string)

  /** The guards of `action_add_watermark_qr`, answer by answer: a base path
      that does not name a file ends the action, and so does empty content
      (after stripping); an empty position becomes `"bottom-right"`; an empty
      artistic prompt selects the standard flow; otherwise the artistic flow
      runs if the generator produced an image and the action ends if not. */
  function Dispatch(baseFound: bool, contentAnswer: string, positionAnswer: string,
                    promptAnswer: string, artisticMade: bool): (f: Flow)
    ensures !baseFound || StripSpace(contentAnswer) == [] ==> f == Abort
    ensures f.Standard? <==> baseFound && StripSpace(contentAnswer) != [] && StripSpace(promptAnswer) == []
    ensures f.Artistic? <==>
      baseFound && StripSpace(contentAnswer) != [] && StripSpace(promptAnswer) != [] && artisticMade
    ensures f.Standard? ==> f.corner != []
    ensures f.Artistic? ==> f.position != []
  {
    if !baseFound then Abort
    else
      var content := StripSpace(contentAnswer);
      if content == [] then Abort
      else
        var position := ChosenPosition(positionAnswer);
        var promptText := StripSpace(promptAnswer);
        if promptText == [] then Standard(position)
        else if !artisticMade then Abort
        else Artistic(position)
  }

  /** The position the user meant: the stripped answer, or `"bottom-right"`
      when the answer is blank. */
  function ChosenPosition(positionAnswer: string): (r: string)
    ensures r != [] && !IsSpace(r[0]) && !IsSpace(r[|r| - 1])
    ensures StripSpace(positionAnswer) != [] ==> r == StripSpace(positionAnswer)
    ensures StripSpace(positionAnswer) == [] ==> r == "bottom-right"
  {
    var stripped := StripSpace(positionAnswer);
    if stripped != [] then stripped else "bottom-right"
  }

  /** Both flows use the position the user meant; a blank answer means
      bottom-right, whichever flow runs. */
  lemma DispatchUsesPosition(baseFound: bool, contentAnswer: string, positionAnswer: string,
                             promptAnswer: string, artisticMade: bool)
    ensures var f := Dispatch(baseFound, contentAnswer, positionAnswer, promptAnswer, artisticMade);
      (f.Standard? ==> f.corner == ChosenPosition(positionAnswer))
      && (f.Artistic? ==> f.position == ChosenPosition(positionAnswer))
    ensures StripSpace(positionAnswer) == [] ==> ChosenPosition(positionAnswer) == "bottom-right"
  {
  }

  /** A blank position answer puts the watermark in the bottom-right
      corner in either flow. */
  lemma BlankPositionIsBottomRight(width: nat, height: nat, side: nat, border: nat, margin: int, positionAnswer: string)
    requires StripSpace(positionAnswer) == []
    ensures var pos := ChosenPosition(positionAnswer);
      var q := PaddedSide(side, border);
      var s := WatermarkAnchor(width, height, side, border, margin, pos);
      var a := ArtisticAnchor(width, height, side, margin, pos);
      s.x + q + margin == width && s.y + q + margin == height
      && a.x + side + margin == width && a.y + side + margin == height
  {
  }
}

=== FILE: compile_offline.dfy ===
/** `parseArgs` and `isSingleMind` of the offline MindAR target compiler.
    The command line is a sequence of strings; `process.exit` becomes an
    `Exit` outcome.  The scan reads left to right from index 2 (after the
    interpreter and the script), pairing `-i`/`--input` and
    `-o`/`--output` with the token after them when that token is truthy
    (present and not empty), and stops at `-h`/`--help`. */
module CompileOffline {
  import opened Wrappers
  import opened Text

  predicate IsInputFlag(a: string) { a == "-i" || a == "--input" }
  predicate IsOutputFlag(a: string) { a == "-o" || a == "--output" }
  predicate IsHelpFlag(a: string) { a == "-h" || a == "--help" }

  /** `argv[i + 1]` is truthy: it exists and is not the empty string. */
  predicate HasValue(argv: seq<string>, i: nat) {
    i + 1 < |argv| && argv[i + 1] != ""
  }

  /** What the scan makes of the tokens it reads. */
  datatype Item = Input(path: string) | Output(path: string) | Help

  /** Whether the token at `i` starts a flag/value pair the scan consumes. */
  predicate Pairs(argv: seq<string>, i: nat)
    requires i < |argv|
  {
    (IsInputFlag(argv[i]) || IsOutputFlag(argv[i])) && HasValue(argv, i)
  }

  /** The items the loop meets from index `i` on.  A consumed value is
      skipped over; help is the last item because the program exits there;
      every other token is passed over. */
  function Scan(argv: seq<string>, i: nat): (items: seq<Item>)
    ensures forall k :: 0 <= k < |items| && items[k].Help? ==> k == |items| - 1
    ensures forall k :: 0 <= k < |items| && !items[k].Help? ==> items[k].path != ""
    decreases |argv| - i
  {
    if i >= |argv| then []
    else if IsInputFlag(argv[i]) && HasValue(argv, i) then [Input(argv[i + 1])] + Scan(argv, i + 2)
    else if IsOutputFlag(argv[i]) && HasValue(argv, i) then [Output(argv[i + 1])] + Scan(argv, i + 2)
    else if IsHelpFlag(argv[i]) then [Help]
    else Scan(argv, i + 1)
  }

  /** The `inputs` array: the values of the input items, in order. */
  function InputsOf(items: seq<Item>): (r: seq<string>)
    ensures |r| <= |items|
  {
    if items == [] then []
    else (if items[0].Input? then [items[0].path] else []) + InputsOf(items[1..])
  }

  /** A value is collected as an input exactly when an input item carries it. */
  lemma {:induction false} InputsOfMembers(items: seq<Item>)
    ensures forall v :: v in InputsOf(items) <==> Input(v) in items
  {
    if items != [] {
      InputsOfMembers(items[1..]);
      assert items == [items[0]] + items[1..];
    }
  }

  /** `output`: the value of the last output item, if any. */
  function LastOutput(items: seq<Item>): (r: Option<string>)
    ensures r.Some? <==> exists k :: 0 <= k < |items| && items[k].Output?
    ensures r.Some? ==> exists k :: 0 <= k < |items| && items[k] == Output(r.value)
  {
    if items == [] then None
    else if items[|items| - 1].Output? then Some(items[|items| - 1].path)
    else LastOutput(items[..|items| - 1])
  }

  datatype Outcome = Exit(code: int) | Options(inputs: seq<string>, output: string)

  /** The result of `parseArgs`: exit 0 at help, exit 2 without an input or
      an output, otherwise the inputs and the output. */
  function Parse(argv: seq<string>): (r: Outcome)
    ensures r.Exit? ==> r.code == 0 || r.code == 2
    ensures r.Options? ==> r.inputs != [] && r.output != ""
    ensures r == Exit(0) <==> Help in Scan(argv, 2)
    ensures Help !in Scan(argv, 2) ==>
      (r == Exit(2) <==> InputsOf(Scan(argv, 2)) == [] || LastOutput(Scan(argv, 2)).None?)
    ensures r.Options? ==> r.inputs == InputsOf(Scan(argv, 2)) && LastOutput(Scan(argv, 2)) == Some(r.output)
  {
    var items := Scan(argv, 2);
    if Help in items then Exit(0)
    else
      var inputs := InputsOf(items);
      var output := LastOutput(items);
      if inputs == [] || output.None? || output.value == "" then Exit(2)
      else Options(inputs, output.value)
  }

  /** The loop of `parseArgs`, one token (or flag/value pair) per step. */
  method ParseArgs(argv: seq<string>) returns (r: Outcome)
    ensures r == Parse(argv)
    ensures r == Exit(0) <==> Help in Scan(argv, 2)
    ensures r.Options? ==> r.inputs == InputsOf(Scan(argv, 2)) && r.inputs != []
  {
    var inputs: seq<string> := [];
    var output: Option<string> := None;
    ghost var done: seq<Item> := [];
    var i: nat := 2;
    while i < |argv|
      invariant Scan(argv, 2) == done + Scan(argv, i)
      invariant Help !in done
      invariant inputs == InputsOf(done)
      invariant output == LastOutput(done)
      decreases |argv| - i
    {
      var a := argv[i];
      if IsInputFlag(a) && HasValue(argv, i) {
        assert Scan(argv, i) == [Input(argv[i + 1])] + Scan(argv, i + 2);
        InputsSnoc(done, Input(argv[i + 1]));
        LastOutputSnoc(done, Input(argv[i + 1]));
        inputs := inputs + [argv[i + 1]];
        Regroup(done, Input(argv[i + 1]), Scan(argv, i + 2));
        done := done + [Input(argv[i + 1])];
        i := i + 2;
      } else if IsOutputFlag(a) && HasValue(argv, i) {
        assert Scan(argv, i) == [Output(argv[i + 1])] + Scan(argv, i + 2);
        InputsSnoc(done, Output(argv[i + 1]));
        LastOutputSnoc(done, Output(argv[i + 1]));
        output := Some(argv[i + 1]);
        Regroup(done, Output(argv[i + 1]), Scan(argv, i + 2));
        done := done + [Output(argv[i + 1])];
        i := i + 2;
      } else if IsHelpFlag(a) {
        assert Help in Scan(argv, 2);
        return Exit(0);
      } else {
        assert Scan(argv, i) == Scan(argv, i + 1);
        i := i + 1;
      }
    }
    assert Scan(argv, i) == [];
    assert done + [] == done;
    if inputs == [] || output.None? || output.value == "" {
      return Exit(2);
    }
    return Options(inputs, output.value);
  }

  lemma Regroup(done: seq<Item>, x: Item, rest: seq<Item>)
    ensures done + ([x] + rest) == (done + [x]) + rest
  {
  }

  lemma InputsSnoc(items: seq<Item>, it: Item)
    ensures it.Input? ==> InputsOf(items + [it]) == InputsOf(items) + [it.path]
    ensures !it.Input? ==> InputsOf(items + [it]) == InputsOf(items)
  {
    InputsAppend(items, [it]);
    assert InputsOf(items) + [] == InputsOf(items);
  }

  lemma NoHelpSnoc(items: seq<Item>, it: Item)
    requires Help !in items && it != Help
    ensures Help !in items + [it]
  {
  }

  lemma LastOutputSnoc(items: seq<Item>, it: Item)
    ensures LastOutput(items + [it]) == if it.Output? then Some(it.path) else LastOutput(items)
  {
    assert (items + [it])[..|items|] == items;
  }

  /** Collecting inputs distributes over concatenation of item sequences. */
  lemma {:induction false} InputsAppend(a: seq<Item>, b: seq<Item>)
    ensures InputsOf(a + b) == InputsOf(a) + InputsOf(b)
  {
    if a == [] {
      assert a + b == b;
    } else {
      var head := if a[0].Input? then [a[0].path] else [];
      assert (a + b)[0] == a[0];
      assert (a + b)[1..] == a[1..] + b;
      assert InputsOf(a + b) == head + InputsOf(a[1..] + b);
      InputsAppend(a[1..], b);
    }
  }

  /** A later output item overrides every earlier one. */
  lemma {:induction false} LastOutputAppend(a: seq<Item>, b: seq<Item>)
    ensures LastOutput(a + b) == if LastOutput(b).Some? then LastOutput(b) else LastOutput(a)
    decreases |b|
  {
    if b == [] {
      assert a + b == a;
    } else {
      var c, init := a + b, b[..|b| - 1];
      assert c[..|c| - 1] == a + init;
      assert c[|c| - 1] == b[|b| - 1];
      if !b[|b| - 1].Output? {
        assert LastOutput(c) == LastOutput(a + init);
        assert LastOutput(b) == LastOutput(init);
        LastOutputAppend(a, init);
      }
    }
  }

  /** The scan never looks below its starting index: two command lines that
      agree from `i` on scan alike, so the interpreter and script names are
      never interpreted. */
  lemma {:induction false} ScanReadsFrom(a: seq<string>, b: seq<string>, i: nat)
    requires |a| == |b|
    requires forall k :: i <= k < |a| ==> a[k] == b[k]
    ensures Scan(a, i) == Scan(b, i)
    decreases |a| - i
  {
    if i < |a| {
      ScanReadsFrom(a, b, i + 1);
      if i + 2 <= |a| {
        ScanReadsFrom(a, b, i + 2);
      }
    }
  }

  lemma FirstTwoIgnored(argv: seq<string>, interp: string, script: string)
    requires |argv| >= 2
    ensures Parse([interp, script] + argv[2..]) == Parse(argv)
  {
    var b := [interp, script] + argv[2..];
    assert forall k :: 2 <= k < |argv| ==> argv[k] == b[k];
    ScanReadsFrom(argv, b, 2);
  }

  /** Where the scan goes after the token at `i`: past a consumed value,
      or to the next token. */
  function Next(argv: seq<string>, i: nat): nat
    requires i < |argv|
  {
    if Pairs(argv, i) then i + 2 else i + 1
  }

  /** The scan from `i` steps onto index `j` without stopping at help
      first: the tokens from `i` up to `j` are read as whole pairs, and no
      flag among them waits for a value beyond the end of `argv`. */
  predicate Reaches(argv: seq<string>, i: nat, j: nat)
    decreases j - i
  {
    i == j
    || (i < j && i < |argv| && !(IsHelpFlag(argv[i]) && !Pairs(argv, i))
        && (i + 1 < |argv| || !(IsInputFlag(argv[i]) || IsOutputFlag(argv[i])))
        && Reaches(argv, Next(argv, i), j))
  }

  /** The scan of a command line it reads to its very end, followed by more
      tokens, is its own scan followed by the scan of those tokens. */
  lemma {:induction false} ScanAppend(argv: seq<string>, extra: seq<string>, i: nat)
    requires Reaches(argv, i, |argv|)
    ensures Scan(argv + extra, i) == Scan(argv, i) + Scan(argv + extra, |argv|)
    decreases |argv| - i
  {
    var c := argv + extra;
    if i < |argv| {
      assert c[i] == argv[i];
      var n := Next(argv, i);
      if Pairs(argv, i) {
        assert c[i + 1] == argv[i + 1];
      } else if IsInputFlag(c[i]) || IsOutputFlag(c[i]) {
        assert c[i + 1] == argv[i + 1] == "";
      }
      ScanAppend(argv, extra, n);
    }
  }

  /** Help ends the scan: once help is scanned, nothing after it matters. */
  lemma {:induction false} HelpStopsScan(argv: seq<string>, extra: seq<string>, i: nat)
    requires Help in Scan(argv, i)
    ensures Scan(argv + extra, i) == Scan(argv, i)
    decreases |argv| - i
  {
    var c := argv + extra;
    assert i < |argv|;
    assert c[i] == argv[i];
    if IsInputFlag(argv[i]) && HasValue(argv, i) {
      assert c[i + 1] == argv[i + 1];
      HelpStopsScan(argv, extra, i + 2);
    } else if IsOutputFlag(argv[i]) && HasValue(argv, i) {
      assert c[i + 1] == argv[i + 1];
      HelpStopsScan(argv, extra, i + 2);
    } else if IsHelpFlag(argv[i]) {
    } else {
      HelpStopsScan(argv, extra, i + 1);
    }
  }

  /** `--help` anywhere the scan reaches makes the exit code 0, whatever
      else the command line holds. */
  lemma HelpWins(argv: seq<string>, extra: seq<string>)
    requires Help in Scan(argv, 2)
    ensures Parse(argv) == Exit(0) && Parse(argv + extra) == Exit(0)
  {
    HelpStopsScan(argv, extra, 2);
  }

  /** Appending `-o v` (or `--output v`) to a command line read to its end makes `v` the
      output, whatever outputs came before; the inputs are unchanged. */
  lemma LastOutputWins(argv: seq<string>, flag: string, v: string)
    requires |argv| >= 2 && Reaches(argv, 2, |argv|) && IsOutputFlag(flag) && v != ""
    requires Help !in Scan(argv, 2)
    ensures var r := Parse(argv + [flag, v]);
      if InputsOf(Scan(argv, 2)) == [] then r == Exit(2)
      else r == Options(InputsOf(Scan(argv, 2)), v)
  {
    var c := argv + [flag, v];
    AppendPair(argv, flag, v);
    var before := Scan(argv, 2);
    var items := Scan(c, 2);
    NoHelpSnoc(before, Output(v));
    InputsSnoc(before, Output(v));
    LastOutputSnoc(before, Output(v));
    ParseWithOutput(c, v);
  }

  /** Without help and with a non-empty last output, the outcome depends
      only on whether there is an input. */
  lemma ParseWithOutput(argv: seq<string>, v: string)
    requires Help !in Scan(argv, 2) && LastOutput(Scan(argv, 2)) == Some(v) && v != ""
    ensures var inputs := InputsOf(Scan(argv, 2));
      Parse(argv) == if inputs == [] then Exit(2) else Options(inputs, v)
  {
  }

  /** A flag/value pair appended to a command line read to its end adds
      one item to its scan. */
  lemma AppendPair(argv: seq<string>, flag: string, v: string)
    requires |argv| >= 2 && Reaches(argv, 2, |argv|)
    requires v != "" && (IsInputFlag(flag) || IsOutputFlag(flag))
    ensures Scan(argv + [flag, v], 2) == Scan(argv, 2) + [if IsInputFlag(flag) then Input(v) else Output(v)]
  {
    ScanAppend(argv, [flag, v], 2);
    FinalPair(argv, flag, v);
  }

  /** A flag and a value appended at the end scan as one item. */
  lemma FinalPair(argv: seq<string>, flag: string, v: string)
    requires v != "" && (IsInputFlag(flag) || IsOutputFlag(flag))
    ensures Scan(argv + [flag, v], |argv|) == [if IsInputFlag(flag) then Input(v) else Output(v)]
  {
    var c := argv + [flag, v];
    assert c[|argv|] == flag && c[|argv| + 1] == v;
    assert Scan(c, |argv| + 2) == [];
  }

  /** Appending `-i v` (or `--input v`) to a command line read to its end adds `v` as the
      last input; the output is unchanged. */
  lemma InputAppends(argv: seq<string>, flag: string, v: string)
    requires |argv| >= 2 && Reaches(argv, 2, |argv|) && IsInputFlag(flag) && v != ""
    ensures var items := Scan(argv + [flag, v], 2);
      InputsOf(items) == InputsOf(Scan(argv, 2)) + [v]
      && LastOutput(items) == LastOutput(Scan(argv, 2))
  {
    AppendPair(argv, flag, v);
    var before := Scan(argv, 2);
    InputsSnoc(before, Input(v));
    LastOutputSnoc(before, Input(v));
  }

  /** A flag with nothing (or an empty string) after it is passed over. */
  lemma TrailingFlagIgnored(argv: seq<string>, flag: string)
    requires |argv| >= 2 && Reaches(argv, 2, |argv|) && !IsHelpFlag(flag)
    ensures Scan(argv + [flag], 2) == Scan(argv, 2)
  {
    var c := argv + [flag];
    ScanAppend(argv, [flag], 2);
    assert c[|argv|] == flag;
    assert Scan(c, |argv|) == Scan(c, |argv| + 1) == [];
  }

  /** A consumed value is not read again as a flag: in `-i -o x` the `-o`
      is an input and `x` is passed over, so there is no output. */
  lemma ValueNotReread(interp: string, script: string, x: string)
    requires x != "" && !IsHelpFlag(x)
    ensures Scan([interp, script, "-i", "-o", x], 2) == [Input("-o")]
    ensures Parse([interp, script, "-i", "-o", x]) == Exit(2)
  {
    var argv := [interp, script, "-i", "-o", x];
    assert argv[2] == "-i" && argv[3] == "-o" && argv[4] == x;
    assert Scan(argv, 5) == [];
    assert Scan(argv, 4) == [];
  }

  /** `isSingleMind`: one input, whose lower-cased form ends with `.mind`. */
  predicate IsSingleMind(inputs: seq<string>)
    ensures IsSingleMind(inputs) ==> |inputs| == 1 && |inputs[0]| >= 5 && inputs[0][|inputs[0]| - 5] == '.'
  {
    |inputs| == 1 && EndsWith(Lower(inputs[0]), ".mind")
  }

  /** The check is case-insensitive in the extension only: `s` ends with a
      dot followed by `m`, `i`, `n`, `d` in either case. */
  lemma SingleMindIff(inputs: seq<string>)
    ensures IsSingleMind(inputs) <==>
      |inputs| == 1 && |inputs[0]| >= 5
      && (var s, n := inputs[0], |inputs[0]|;
          s[n - 5] == '.' && s[n - 4] in "mM" && s[n - 3] in "iI" && s[n - 2] in "nN" && s[n - 1] in "dD")
  {
    var mind := ".mind";
    assert mind[0] == '.' && mind[1] == 'm' && mind[2] == 'i' && mind[3] == 'n' && mind[4] == 'd';
    if |inputs| == 1 && |inputs[0]| >= 5 {
      var s, n := inputs[0], |inputs[0]|;
      var low := Lower(s);
      var tail := low[n - 5..];
      assert EndsWith(low, mind) <==> tail == mind;
      assert tail == mind <==> (tail[0] == '.' && tail[1] == 'm' && tail[2] == 'i' && tail[3] == 'n' && tail[4] == 'd');
    }
  }
}

=== FILE: imageutils.dfy ===
/** The geometry of `add_qr_watermark`: where the padded QR square goes on the
    base image, and the name the result is saved under.  Pixel work (the
    resize, the white border, the compositing, the save) is not modelled;
    sizes are integers, with `side`, the margin in pixels and the border
    width taken as already rounded. */
module ImageUtils {
  import opened Paths
  import opened Numerals
  import opened Utils

  datatype Corner = TopLeft | TopRight | BottomLeft | BottomRight {
    predicate IsLeft() { this == TopLeft || this == BottomLeft }
    predicate IsTop() { this == TopLeft || this == TopRight }
  }

  function CornerName(c: Corner): string {
    match c
    case TopLeft => "top-left"
    case TopRight => "top-right"
    case BottomLeft => "bottom-left"
    case BottomRight => "bottom-right"
  }

  /** The corner names the watermark accepts. */
  const VALID_CORNERS: set<string> := {"top-left", "top-right", "bottom-left", "bottom-right"}

  /** A pixel position: the top-left point of the pasted QR. */
  datatype Point = Point(x: int, y: int)

  /** The corner actually used: an unknown name silently becomes
      `"bottom-right"`, then the `if`/`elif` chain picks the corner, with
      top-left as its final `else`. */
  function ResolveCorner(text: string): (c: Corner)
    ensures text in VALID_CORNERS ==> CornerName(c) == text
    ensures text !in VALID_CORNERS ==> c == BottomRight
  {
    var name := if text !in VALID_CORNERS then "bottom-right" else text;
    if name == "bottom-right" then BottomRight
    else if name == "bottom-left" then BottomLeft
    else if name == "top-right" then TopRight
    else TopLeft
  }

  /** The anchor of a `qw` by `qh` box in corner `c` of a `w` by `h` image:
      the box keeps exactly `margin` pixels from the two edges that meet at
      that corner.  Nothing is clamped: the anchor may be negative. */
  function Place(c: Corner, w: int, h: int, qw: int, qh: int, margin: int): (p: Point)
    ensures c.IsLeft() ==> p.x == margin
    ensures !c.IsLeft() ==> w - (p.x + qw) == margin
    ensures c.IsTop() ==> p.y == margin
    ensures !c.IsTop() ==> h - (p.y + qh) == margin
  {
    match c
    case BottomRight => Point(w - qw - margin, h - qh - margin)
    case BottomLeft => Point(margin, h - qh - margin)
    case TopRight => Point(w - qw - margin, margin)
    case TopLeft => Point(margin, margin)
  }

  /** A non-negative fraction `num / den`, standing for the float
      parameters `size` and `margin` (0.2 is `1 / 5`). */
  datatype Ratio = Ratio(num: nat, den: nat)

  /** Python's `round` of `num / den`: the nearest integer, and the even
      one of the two at a tie. */
  function RoundHalfEven(num: nat, den: nat): (r: nat)
    requires 0 < den
    ensures 2 * num <= 2 * (r * den) + den && 2 * (r * den) <= 2 * num + den
    ensures 2 * num == 2 * (r * den) + den || 2 * (r * den) == 2 * num + den ==> r % 2 == 0
  {
    var q, rem := num / den, num % den;
    var r := if 2 * rem < den then q
             else if 2 * rem > den then q + 1
             else if q % 2 == 0 then q
             else q + 1;
    RoundStep(num, den, q, rem, r);
    r
  }

  /** Rounding moves by less than half a unit, in either direction. */
  lemma RoundStep(num: nat, den: nat, q: nat, rem: nat, r: nat)
    requires 0 < den && q == num / den && rem == num % den
    requires r == q || r == q + 1
    requires r == q ==> 2 * rem <= den
    requires r == q + 1 ==> 2 * rem >= den
    ensures 2 * num <= 2 * (r * den) + den && 2 * (r * den) <= 2 * num + den
    ensures 2 * num == 2 * (r * den) + den ==> 2 * rem == den && r == q
    ensures 2 * (r * den) == 2 * num + den ==> 2 * rem == den && r == q + 1
  {
    var base := q * den;
    assert base + rem == num;
    assert (q + 1) * den == base + den;
  }

  /** Rounding has exactly one answer: any `s` within half a unit of
      `num / den` that is even at a tie is the rounded value. */
  lemma RoundHalfEvenUnique(num: nat, den: nat, s: nat)
    requires 0 < den
    requires 2 * num <= 2 * (s * den) + den && 2 * (s * den) <= 2 * num + den
    requires 2 * num == 2 * (s * den) + den || 2 * (s * den) == 2 * num + den ==> s % 2 == 0
    ensures s == RoundHalfEven(num, den)
  {
    var r := RoundHalfEven(num, den);
    if s > r {
      FarApart(r, s, den);
    } else if s < r {
      FarApart(s, r, den);
    }
  }

  /** Two different multiples of `den` are at least `den` apart, and at
      least `2 * den` apart unless the factors are neighbours. */
  lemma FarApart(a: nat, b: nat, den: nat)
    requires a < b
    ensures b * den >= a * den + den
    ensures b > a + 1 ==> b * den >= a * den + 2 * den
  {
    var d := b - a;
    assert b * den == a * den + d * den;
    MulAtLeast(d, den);
    if d > 1 {
      MulAtLeast(d - 1, den);
      assert d * den == (d - 1) * den + den;
    }
  }

  /** `int(round(n * f))`, in pixels: the nearest integer to the exact
      product, even at a tie. */
  function Pixels(n: nat, f: Ratio): (r: nat)
    requires 0 < f.den
    ensures 2 * (n * f.num) <= 2 * (r * f.den) + f.den && 2 * (r * f.den) <= 2 * (n * f.num) + f.den
    ensures 2 * (n * f.num) == 2 * (r * f.den) + f.den || 2 * (r * f.den) == 2 * (n * f.num) + f.den
            ==> r % 2 == 0
  {
    RoundHalfEven(n * f.num, f.den)
  }

  /** `int(side * 0.05)`: the white border, truncated. */
  function BorderPx(side: nat): (b: nat)
    ensures 20 * b <= side < 20 * (b + 1)
  {
    side / 20
  }

  /** `ImageOps.expand(qr, border)`: a border on each of the four sides. */
  function PaddedSide(side: nat, border: nat): nat {
    side + 2 * border
  }

  /** Where `add_qr_watermark` pastes the QR: resized to `side`, padded by
      `border`, placed in the named corner of a `width` by `height` base. */
  function WatermarkAnchor(width: nat, height: nat, side: nat, border: nat, margin: int, corner: string): (p: Point)
    ensures var q := PaddedSide(side, border);
      var c := ResolveCorner(corner);
      (c.IsLeft() ==> p.x == margin) && (!c.IsLeft() ==> p.x + q + margin == width)
      && (c.IsTop() ==> p.y == margin) && (!c.IsTop() ==> p.y + q + margin == height)
  {
    var q := PaddedSide(side, border);
    Place(ResolveCorner(corner), width, height, q, q, margin)
  }

  /** `add_qr_watermark` from its parameters: the side is `size` of the
      width, the margin is `margin` of the shorter dimension, both rounded,
      and the border is a twentieth of the side. */
  function QrWatermarkAnchor(width: nat, height: nat, size: Ratio, margin: Ratio, corner: string): (p: Point)
    requires 0 < size.den && 0 < margin.den
    ensures var side := Pixels(width, size);
      var q := side + 2 * BorderPx(side);
      var m := Pixels(if width < height then width else height, margin);
      var c := ResolveCorner(corner);
      (c.IsLeft() ==> p.x == m) && (!c.IsLeft() ==> p.x + q + m == width)
      && (c.IsTop() ==> p.y == m) && (!c.IsTop() ==> p.y + q + m == height)
  {
    var side := Pixels(width, size);
    var marginPx := Pixels(if width < height then width else height, margin);
    WatermarkAnchor(width, height, side, BorderPx(side), marginPx, corner)
  }

  /** On a 1000 by 1000 image with size 0.2 and margin 0.02, the QR is 200
      pixels wide with a 10-pixel border and a 20-pixel margin, so it lands
      at (760, 760) in the bottom-right corner. */
  lemma ThousandPixelScenario()
    ensures Pixels(1000, Ratio(1, 5)) == 200 && Pixels(1000, Ratio(1, 50)) == 20
    ensures BorderPx(200) == 10
    ensures QrWatermarkAnchor(1000, 1000, Ratio(1, 5), Ratio(1, 50), "bottom-right") == Point(760, 760)
  {
  }

  /** Any name outside the four valid ones is placed exactly as
      `"bottom-right"`. */
  lemma FallbackIsBottomRight(width: nat, height: nat, side: nat, border: nat, margin: int, corner: string)
    requires corner !in VALID_CORNERS
    ensures WatermarkAnchor(width, height, side, border, margin, corner)
         == WatermarkAnchor(width, height, side, border, margin, "bottom-right")
  {
  }

  /** The top-left anchor does not depend on the image or the QR size. */
  lemma TopLeftIgnoresSizes(w1: nat, h1: nat, s1: nat, b1: nat, w2: nat, h2: nat, s2: nat, b2: nat, margin: int)
    ensures WatermarkAnchor(w1, h1, s1, b1, margin, "top-left") == Point(margin, margin)
    ensures WatermarkAnchor(w1, h1, s1, b1, margin, "top-left")
         == WatermarkAnchor(w2, h2, s2, b2, margin, "top-left")
  {
  }

  /** Corners on the same side share the coordinate across that side. */
  lemma SharedCoordinates(width: nat, height: nat, side: nat, border: nat, margin: int)
    ensures var a := (c: string) => WatermarkAnchor(width, height, side, border, margin, c);
      a("bottom-left").x == a("top-left").x && a("top-right").y == a("top-left").y
      && a("bottom-right").x == a("top-right").x && a("bottom-right").y == a("bottom-left").y
  {
  }

  /** The pasted square lies inside the base image exactly when the margin
      is not negative and the square plus one margin fits both ways; this
      holds for every corner.  The code itself performs no such check. */
  lemma InBoundsIff(width: nat, height: nat, side: nat, border: nat, margin: int, corner: string)
    ensures var p := WatermarkAnchor(width, height, side, border, margin, corner);
      var q := PaddedSide(side, border);
      (0 <= p.x && p.x + q <= width && 0 <= p.y && p.y + q <= height)
      <==> (0 <= margin && q + margin <= width && q + margin <= height)
  {
  }

  /** A 100-pixel-wide square with a 5-pixel border on a 100 by 100 image
      with a 2-pixel margin lands at (-12, -12) in the bottom-right corner. */
  lemma NegativeAnchorExample()
    ensures WatermarkAnchor(100, 100, 100, 5, 2, "bottom-right") == Point(-12, -12)
    ensures WatermarkAnchor(100, 100, 100, 5, 2, "middle") == Point(-12, -12)
  {
  }

  /** The saved image: `<stem>_watermarked.png` in the saved-images
      directory, renamed by the unique-filename resolver if taken. */
  function WatermarkOutputPath(base: Path, savedDir: string, existing: set<Path>): (r: Path)
    ensures r !in existing && r.dir == savedDir
    ensures Path(savedDir, Stem(base.name) + "_watermarked.png") !in existing
            ==> r.name == Stem(base.name) + "_watermarked.png"
  {
    UniqueFilename(Path(savedDir, Stem(base.name) + "_watermarked.png"), existing)
  }

  /** The saved name is `<stem>_watermarked.png` or, when that is taken,
      `<stem>_watermarked(<i>).png` for the least free `i >= 1`: the
      counter goes before the `.png`, not after it. */
  lemma WatermarkOutputName(base: Path, savedDir: string, existing: set<Path>)
    ensures var stem := Stem(base.name) + "_watermarked";
      var p := Path(savedDir, stem + ".png");
      var r := WatermarkOutputPath(base, savedDir, existing);
      (p !in existing ==> r.name == stem + ".png")
      && (p in existing ==>
            exists i: nat :: IsLeastFree(Split(savedDir, stem, ".png"), existing, i)
                          && r.name == stem + "(" + Decimal(i) + ")" + ".png")
  {
    var stem := Stem(base.name) + "_watermarked";
    var png := "png";
    assert png[0] == 'p' && png[1] == 'n' && png[2] == 'g';
    var name := stem + ".png";
    assert "." + png == ".png";
    assert name == stem + "." + png;
    assert name == Stem(base.name) + "_watermarked.png";
    var p := Path(savedDir, name);
    SplitOfDotted(savedDir, stem, png);
    var sp := Split(savedDir, stem, ".png");
    assert SplitOf(p) == sp;
    var r := WatermarkOutputPath(base, savedDir, existing);
    assert r == UniqueFilename(p, existing);
    if p in existing {
      var i := FirstFreeFrom(sp, existing, 1);
      assert r == Candidate(sp, i);
    }
  }
}

=== FILE: numerals.dfy ===
/** Positional numerals over an arbitrary digit alphabet.  The decimal
    counter of the unique-filename resolver and the base-62 short codes are
    both instances. */
module Numerals {

  /** A usable digit alphabet: at least two digits, no digit repeated. */
  predicate ValidDigits(digits: string) {
    |digits| >= 2 && forall i, j :: 0 <= i < j < |digits| ==> digits[i] != digits[j]
  }

  predicate AllDigits(s: string, digits: string) {
    forall k :: 0 <= k < |s| ==> s[k] in digits
  }

  /** The numeral of `n`: most significant digit first, no leading zero
      digit except for zero itself, which is the single zero digit. */
  function Encode(n: nat, digits: string): (s: string)
    requires ValidDigits(digits)
    ensures |s| >= 1
    ensures AllDigits(s, digits)
    ensures n == 0 <==> s == [digits[0]]
    ensures n > 0 ==> s[0] != digits[0]
    decreases n
  {
    if n < |digits| then [digits[n]]
    else Encode(n / |digits|, digits) + [digits[n % |digits|]]
  }

  /** The value of digit `c`: its position in the alphabet. */
  function DigitValue(c: char, digits: string): (v: nat)
    requires c in digits
    ensures v < |digits| && digits[v] == c
    ensures forall j :: 0 <= j < v ==> digits[j] != c
  {
    if digits[0] == c then 0 else 1 + DigitValue(c, digits[1..])
  }

  lemma DigitValueOf(digits: string, k: nat)
    requires ValidDigits(digits) && k < |digits|
    ensures DigitValue(digits[k], digits) == k
  {
  }

  /** The value of a numeral, most significant digit first. */
  function Decode(s: string, digits: string): nat
    requires AllDigits(s, digits)
  {
    if s == [] then 0
    else Decode(s[..|s| - 1], digits) * |digits| + DigitValue(s[|s| - 1], digits)
  }

  /** A numeral as `Encode` writes it: non-empty, and no leading zero digit
      unless it is the single zero digit. */
  predicate Canonical(s: string, digits: string)
    requires |digits| >= 1
  {
    AllDigits(s, digits) && |s| >= 1 && (s[0] == digits[0] ==> |s| == 1)
  }

  /** Appending a digit multiplies by the base and adds the digit's value. */
  lemma DecodeSnoc(hi: string, c: char, digits: string)
    requires AllDigits(hi, digits) && c in digits
    ensures AllDigits(hi + [c], digits)
    ensures Decode(hi + [c], digits) == Decode(hi, digits) * |digits| + DigitValue(c, digits)
  {
    var s := hi + [c];
    assert s[..|s| - 1] == hi;
  }

  lemma DecodeSingle(c: char, digits: string)
    requires c in digits
    ensures Decode([c], digits) == DigitValue(c, digits)
  {
    assert [c][..0] == [];
  }

  lemma DivMod(n: nat, b: nat)
    requires b > 0
    ensures n / b * b + n % b == n && 0 <= n % b < b
    ensures 0 <= n / b
  {
  }

  /** Decoding undoes encoding. */
  lemma {:induction false} DecodeEncode(n: nat, digits: string)
    requires ValidDigits(digits)
    ensures Decode(Encode(n, digits), digits) == n
    decreases n
  {
    var b := |digits|;
    if n < b {
      DigitValueOf(digits, n);
      DecodeSingle(digits[n], digits);
    } else {
      var q := Quotient(n, b);
      DecodeEncode(q, digits);
      DecodeEncodeStep(n, digits);
    }
  }

  function Quotient(n: nat, b: nat): (q: nat)
    requires 2 <= b <= n
    ensures q == n / b && q < n
  {
    var q := n / b;
    assert 0 <= q && q * b + n % b == n && 0 <= n % b by { DivMod(n, b); }
    MulAtLeastTwice(q, b);
    q
  }

  lemma {:induction false} MulAtLeastTwice(q: nat, b: nat)
    requires b >= 2
    ensures q * b >= 2 * q
  {
    if q > 0 {
      MulAtLeastTwice(q - 1, b);
      assert q * b == (q - 1) * b + b;
    }
  }

  lemma DecodeEncodeStep(n: nat, digits: string)
    requires ValidDigits(digits) && n >= |digits|
    requires Decode(Encode(n / |digits|, digits), digits) == n / |digits|
    ensures Decode(Encode(n, digits), digits) == n
  {
    var b := |digits|;
    var q, r := n / b, n % b;
    assert 0 <= q && q * b + r == n && r < b by { DivMod(n, b); }
    var hi := Encode(q, digits);
    assert Encode(n, digits) == hi + [digits[r]];
    DigitValueOf(digits, r);
    DecodeSnoc(hi, digits[r], digits);
  }

  /** A numeral whose leading digit is not zero has a positive value. */
  lemma {:induction false} DecodePositive(s: string, digits: string)
    requires ValidDigits(digits)
    requires AllDigits(s, digits) && |s| >= 1 && s[0] != digits[0]
    ensures Decode(s, digits) >= 1
  {
    if |s| == 1 {
      assert DigitValue(s[0], digits) != 0;
    } else {
      var init := s[..|s| - 1];
      assert init[0] == s[0];
      DecodePositive(init, digits);
    }
  }

  lemma {:induction false} MulAtLeast(d: nat, b: nat)
    requires d >= 1
    ensures d * b >= b
  {
    if d > 1 {
      MulAtLeast(d - 1, b);
      assert d * b == (d - 1) * b + b;
    }
  }

  /** Quotient and remainder are the only such pair. */
  lemma DivModUnique(n: nat, b: nat, q: nat, r: nat)
    requires 0 <= r < b && n == q * b + r
    ensures n / b == q && n % b == r
  {
    var q', r' := n / b, n % b;
    assert n == q' * b + r' && 0 <= r' < b;
    if q' > q {
      var d := q' - q;
      assert q' * b == q * b + d * b by { assert q' == q + d; }
      MulAtLeast(d, b);
    } else if q' < q {
      var d := q - q';
      assert q * b == q' * b + d * b by { assert q == q' + d; }
      MulAtLeast(d, b);
    }
  }

  /** Encoding undoes decoding on canonical numerals, so `Encode` is a
      bijection between naturals and canonical numerals. */
  lemma {:induction false} EncodeDecode(s: string, digits: string)
    requires ValidDigits(digits) && Canonical(s, digits)
    ensures Encode(Decode(s, digits), digits) == s
    decreases |s|
  {
    var b := |digits|;
    var init, last := s[..|s| - 1], s[|s| - 1];
    var v := DigitValue(last, digits);
    assert s == init + [last];
    DecodeSnoc(init, last, digits);
    if |s| == 1 {
      assert init == [];
    } else {
      assert init[0] == s[0];
      DecodePositive(init, digits);
      var m := Decode(init, digits);
      var n := Decode(s, digits);
      DivModUnique(n, b, m, v);
      MulAtLeast(m, b);
      EncodeDecode(init, digits);
      assert Encode(n, digits) == Encode(m, digits) + [digits[v]];
    }
  }

  /** Distinct numbers have distinct numerals. */
  lemma EncodeInjective(m: nat, n: nat, digits: string)
    requires ValidDigits(digits)
    ensures Encode(m, digits) == Encode(n, digits) ==> m == n
  {
    DecodeEncode(m, digits);
    DecodeEncode(n, digits);
  }

  /** The decimal digits, as Python's `str(int)` writes them. */
  const DECIMAL: string := "0123456789"

  lemma DecimalValid()
    ensures ValidDigits(DECIMAL)
  {
    assert forall k :: 0 <= k < 10 ==> DECIMAL[k] as int == '0' as int + k;
  }

  /** Python's `f"{n}"` for a natural number `n`. */
  function Decimal(n: nat): (s: string)
    ensures |s| >= 1 && AllDigits(s, DECIMAL)
  {
    DecimalValid();
    Encode(n, DECIMAL)
  }

  /** A number below ten is its own single digit. */
  lemma DecimalDigit(n: nat)
    requires n < 10
    ensures Decimal(n) == [DECIMAL[n]]
  {
    DecimalValid();
  }

  lemma DecimalInjective(m: nat, n: nat)
    ensures Decimal(m) == Decimal(n) ==> m == n
  {
    DecimalValid();
    EncodeInjective(m, n, DECIMAL);
  }
}

=== FILE: paths.dfy ===
/** The part of Python's `pathlib` the core uses: a path as a parent
    directory and a final name, and the `stem` / `suffix` split of that
    name. */
module Paths {
  import opened Text

  /** A path: its parent directory and its final component `name`.
      `with_name` replaces the name and keeps the directory. */
  datatype Path = Path(dir: string, name: string) {
    function WithName(newName: string): (r: Path)
      ensures r.dir == dir && r.name == newName
    {
      Path(dir, newName)
    }
  }

  /** Python's `s.rfind(c)`: the last index of `c`, or -1. */
  function LastIndexOf(s: string, c: char): (i: int)
    ensures -1 <= i < |s|
    ensures 0 <= i ==> s[i] == c
    ensures forall k :: i < k < |s| ==> s[k] != c
  {
    if s == [] then -1
    else if s[|s| - 1] == c then |s| - 1
    else LastIndexOf(s[..|s| - 1], c)
  }

  /** Where `suffix` starts: the last dot, provided it is neither the first
      nor the last character of the name; otherwise there is no suffix. */
  function SuffixStart(name: string): (i: int)
    ensures i == -1 || (0 < i < |name| - 1 && name[i] == '.')
  {
    var i := LastIndexOf(name, '.');
    if 0 < i < |name| - 1 then i else -1
  }

  /** `PurePath.suffix`. */
  function Suffix(name: string): (r: string)
    ensures r == [] || (2 <= |r| < |name| && r[0] == '.' && '.' !in r[1..])
    ensures EndsWith(name, r)
  {
    var i := SuffixStart(name);
    if i == -1 then "" else name[i..]
  }

  /** `PurePath.stem`: the name without its suffix. */
  function Stem(name: string): (r: string)
    ensures r <= name
    ensures name != [] ==> r != []
    ensures |r| < |name| ==> 0 < |r| < |name| - 1 && name[|r|] == '.'
  {
    var i := SuffixStart(name);
    if i == -1 then name else name[..i]
  }

  /** Stem and suffix split the name: nothing is lost or added. */
  lemma StemSuffixSplit(name: string)
    ensures Stem(name) + Suffix(name) == name
  {
  }

  /** A name `a.b` whose `b` holds no dot and neither part is empty has stem
      `a` and suffix `.b`. */
  lemma SplitAtLastDot(a: string, b: string)
    requires a != [] && b != [] && '.' !in b
    ensures Stem(a + "." + b) == a
    ensures Suffix(a + "." + b) == "." + b
  {
    var name := a + "." + b;
    var i := LastIndexOf(name, '.');
    assert name[|a|] == '.';
    assert i == |a|;
    assert name[|a|..] == "." + b;
  }
}

=== FILE: shortid.dfy ===
/** Short, file-system-safe names: `[slug-]code.ext`.  The code is a base-62
    string taken from a hash of the file's content, from random draws, or
    from both.  SHA-256 and `secrets.choice` are oracles: the digest is a
    parameter and so is the sequence of random draws. */
module ShortId {
  import opened Wrappers
  import opened Text
  import opened Numerals
  import opened Paths

  /** The base-62 digits: digits, then lower-case, then upper-case letters. */
  const ALPHABET: string := "0123456789" + "abcdefghijklmnopqrstuvwxyz" + "ABCDEFGHIJKLMNOPQRSTUVWXYZ"

  /** The position of a character in `ALPHABET`, or -1. */
  function Rank62(c: char): int {
    if '0' <= c <= '9' then c as int - '0' as int
    else if 'a' <= c <= 'z' then c as int - 'a' as int + 10
    else if 'A' <= c <= 'Z' then c as int - 'A' as int + 36
    else -1
  }

  /** `ALPHABET` has 62 distinct characters, and `Rank62` is its index. */
  lemma AlphabetValid()
    ensures |ALPHABET| == 62 && ValidDigits(ALPHABET)
    ensures forall k :: 0 <= k < 62 ==> Rank62(ALPHABET[k]) == k
  {
    var digits, lower, upper := "0123456789", "abcdefghijklmnopqrstuvwxyz", "ABCDEFGHIJKLMNOPQRSTUVWXYZ";
    DigitRanks(digits);
    LowerRanks(lower);
    UpperRanks(upper);
    assert ALPHABET == digits + lower + upper;
    forall k | 0 <= k < 62
      ensures Rank62(ALPHABET[k]) == k
    {
      if k < 10 {
        assert ALPHABET[k] == digits[k];
      } else if k < 36 {
        assert ALPHABET[k] == lower[k - 10];
      } else {
        assert ALPHABET[k] == upper[k - 36];
      }
    }
  }

  /** Each run of `ALPHABET` ranks from its offset. */
  lemma DigitRanks(run: string)
    requires run == "0123456789"
    ensures forall k :: 0 <= k < |run| ==> Rank62(run[k]) == k
  {
  }

  lemma LowerRanks(run: string)
    requires run == "abcdefghijklmnopqrstuvwxyz"
    ensures forall k :: 0 <= k < |run| ==> Rank62(run[k]) == 10 + k
  {
  }

  lemma UpperRanks(run: string)
    requires run == "ABCDEFGHIJKLMNOPQRSTUVWXYZ"
    ensures forall k :: 0 <= k < |run| ==> Rank62(run[k]) == 36 + k
  {
  }

  // ---------------------------------------------------------------------
  // Slugs

  predicate IsLetterOrDigit(c: char) { 'a' <= c <= 'z' || '0' <= c <= '9' }

  predicate IsSlugChar(c: char) { IsLetterOrDigit(c) || c == '-' }

  predicate IsSpaceOrUnderscore(c: char) { IsSpace(c) || c == '_' }

  /** A slug: only `[a-z0-9-]`, no `--`, no hyphen at either end. */
  predicate IsSlug(s: string) {
    All(s, IsSlugChar) && NoAdjacent(s, IsHyphen) && (s == [] || (s[0] != '-' && s[|s| - 1] != '-'))
  }

  /** `_slugify` before the length cut: lower-case and strip, turn runs of
      whitespace and underscores into one hyphen, drop every character
      outside `[a-z0-9-]`, collapse hyphen runs and strip hyphens.  The
      input is taken as already NFKD-normalised with combining marks
      removed. */
  function SlugCore(text: string): (r: string)
    ensures IsSlug(r)
  {
    var lowered := StripSpace(Lower(text));
    var hyphened := SubRuns(lowered, IsSpaceOrUnderscore, '-');
    var kept := Keep(hyphened, IsSlugChar);
    var collapsed := SubRuns(kept, IsHyphen, '-');
    StripKeeps(collapsed, IsHyphen, IsSlugChar);
    StripKeeps(collapsed, IsHyphen, IsHyphen);
    Strip(collapsed, IsHyphen)
  }

  lemma FallbackIsSlug()
    ensures IsSlug("file")
  {
    var f := "file";
    assert f[0] == 'f' && f[1] == 'i' && f[2] == 'l' && f[3] == 'e';
  }

  /** `_slugify(text, max_len)`: the slug cut to `max_len` characters
      (Python slicing), or `"file"` when that leaves nothing. */
  function Slugify(text: string, maxLen: int): (r: string)
    ensures r != [] && r[0] != '-'
    ensures All(r, IsSlugChar) && NoAdjacent(r, IsHyphen)
    ensures 0 <= maxLen ==> |r| <= maxLen || r == "file"
    ensures r == "file" || r <= SlugCore(text)
    ensures SlugCore(text) == [] ==> r == "file"
    ensures SlugCore(text) != [] && |SlugCore(text)| <= maxLen ==> r == SlugCore(text)
    ensures 0 < maxLen < |SlugCore(text)| ==> r == SlugCore(text)[..maxLen]
  {
    var core := SlugCore(text);
    var cut := PyPrefix(core, maxLen);
    CutKeeps(core, maxLen);
    FallbackIsSlug();
    if cut == [] then "file" else cut
  }

  /** A cut of a slug keeps its characters, its single hyphens and its
      leading non-hyphen; only the trailing hyphen may appear. */
  lemma CutKeeps(core: string, maxLen: int)
    requires IsSlug(core)
    ensures var cut := PyPrefix(core, maxLen);
      All(cut, IsSlugChar) && NoAdjacent(cut, IsHyphen) && (cut == [] || cut[0] != '-')
  {
    var cut := PyPrefix(core, maxLen);
    assert cut == core[0..|cut|];
    SliceKeeps(core, 0, |cut|, IsSlugChar);
    SliceKeeps(core, 0, |cut|, IsHyphen);
  }

  /** The letters and digits of the lower-cased input survive, in order;
      every other character is dropped or rewritten. */
  lemma SlugKeepsLettersAndDigits(text: string)
    ensures Keep(SlugCore(text), IsLetterOrDigit) == Keep(Lower(text), IsLetterOrDigit)
  {
    var lowered := StripSpace(Lower(text));
    var hyphened := SubRuns(lowered, IsSpaceOrUnderscore, '-');
    var kept := Keep(hyphened, IsSlugChar);
    var collapsed := SubRuns(kept, IsHyphen, '-');
    KeepStrip(Lower(text), IsSpace, IsLetterOrDigit);
    KeepSubRuns(lowered, IsSpaceOrUnderscore, '-', IsLetterOrDigit);
    KeepKeep(hyphened, IsSlugChar, IsLetterOrDigit);
    KeepSubRuns(kept, IsHyphen, '-', IsLetterOrDigit);
    KeepStrip(collapsed, IsHyphen, IsLetterOrDigit);
  }

  /** Lower-casing leaves a string without ASCII capitals as it is. */
  lemma LowerFree(s: string)
    requires forall k :: 0 <= k < |s| ==> !IsUpperAscii(s[k])
    ensures Lower(s) == s
  {
  }

  /** Two slugs joined by a run of whitespace and underscores. */
  lemma JoinedParts(a: string, sep: string, b: string)
    requires IsSlug(a) && IsSlug(b) && a != [] && b != []
    requires sep != [] && All(sep, IsSpaceOrUnderscore)
    ensures var t := a + sep + b;
      (forall k :: 0 <= k < |t| ==> !IsUpperAscii(t[k]))
      && !IsSpace(t[0]) && !IsSpace(t[|t| - 1])
    ensures forall k :: 0 <= k < |a| ==> !IsSpaceOrUnderscore(a[k])
    ensures forall k :: 0 <= k < |b| ==> !IsSpaceOrUnderscore(b[k])
  {
    var t := a + sep + b;
    forall k | 0 <= k < |t|
      ensures !IsUpperAscii(t[k])
    {
      if k < |a| {
        assert t[k] == a[k] && IsSlugChar(a[k]);
      } else if k < |a| + |sep| {
        assert t[k] == sep[k - |a|] && IsSpaceOrUnderscore(sep[k - |a|]);
      } else {
        assert t[k] == b[k - |a| - |sep|] && IsSlugChar(b[k - |a| - |sep|]);
      }
    }
    assert t[0] == a[0] && IsSlugChar(a[0]);
    assert t[|t| - 1] == b[|b| - 1] && IsSlugChar(b[|b| - 1]);
    assert forall k :: 0 <= k < |a| ==> IsSlugChar(a[k]);
    assert forall k :: 0 <= k < |b| ==> IsSlugChar(b[k]);
  }

  /** Two slugs joined by one hyphen form a slug. */
  lemma HyphenJoinIsSlug(a: string, b: string)
    requires IsSlug(a) && IsSlug(b) && a != [] && b != []
    ensures IsSlug(a + "-" + b)
  {
    var x := a + "-" + b;
    assert forall k :: 0 <= k < |a| ==> x[k] == a[k];
    assert x[|a|] == '-';
    assert forall k :: |a| < k < |x| ==> x[k] == b[k - |a| - 1];
  }

  /** `re.sub(r"[\s_]+", "-", s)`: whitespace and underscores between two
      slugs become a single hyphen, and the rest of the cleaning keeps the
      result, so `"a b"` and `"a__b"` both give `"a-b"`. */
  lemma SeparatorBecomesHyphen(a: string, sep: string, b: string)
    requires IsSlug(a) && IsSlug(b) && a != [] && b != []
    requires sep != [] && All(sep, IsSpaceOrUnderscore)
    ensures SlugCore(a + sep + b) == a + "-" + b
  {
    var t := a + sep + b;
    JoinedParts(a, sep, b);
    LowerFree(t);
    StripFixed(t, IsSpace);
    SubRunsJoin(a, sep, b, IsSpaceOrUnderscore, '-');
    assert a + ['-'] + b == a + "-" + b;
    HyphenJoinIsSlug(a, b);
    SlugCoreOfHyphened(t, a + "-" + b);
  }

  /** Once the separators are hyphens and the text is a slug, the rest of
      the cleaning changes nothing. */
  lemma SlugCoreOfHyphened(text: string, x: string)
    requires SubRuns(StripSpace(Lower(text)), IsSpaceOrUnderscore, '-') == x
    requires IsSlug(x)
    ensures SlugCore(text) == x
  {
    assert Keep(x, IsSlugChar) == x;
    SubRunsFixed(x, IsHyphen, '-');
    StripFixed(x, IsHyphen);
  }

  /** A slug is its own slug. */
  lemma SlugFixed(s: string)
    requires IsSlug(s)
    ensures SlugCore(s) == s
  {
    assert Lower(s) == s;
    StripFixed(s, IsSpace);
    SubRunsFixed(s, IsSpaceOrUnderscore, '-');
    assert Keep(s, IsSlugChar) == s;
    SubRunsFixed(s, IsHyphen, '-');
    StripFixed(s, IsHyphen);
  }

  /** Slugifying twice is slugifying once. */
  lemma SlugCoreIdempotent(text: string)
    ensures SlugCore(SlugCore(text)) == SlugCore(text)
  {
    SlugFixed(SlugCore(text));
  }

  /** A slug is cut as it is, without the clean-up running again. */
  lemma SlugifyOfSlug(s: string, maxLen: int)
    requires IsSlug(s) && s != [] && 0 < maxLen
    ensures Slugify(s, maxLen) == PyPrefix(s, maxLen)
  {
    SlugFixed(s);
  }

  /** The cut comes after the hyphen stripping, so a slug can end with a
      hyphen: a cut just after a hyphen of the clean slug keeps it, as in
      `_slugify("ab-cd", 3) == "ab-"`. */
  lemma SlugMayEndWithHyphen(s: string, maxLen: int)
    requires IsSlug(s) && 0 < maxLen < |s| && s[maxLen - 1] == '-'
    ensures Slugify(s, maxLen) == s[..maxLen]
    ensures Slugify(s, maxLen)[maxLen - 1] == '-'
  {
    SlugifyOfSlug(s, maxLen);
  }

  // ---------------------------------------------------------------------
  // Codes

  /** An index into `ALPHABET`: what one `secrets.choice(ALPHABET)` picks. */
  type AlphabetIndex = k: nat | k < 62

  /** `random_code(length)`: the `k`-th character is the `k`-th draw of the
      random oracle; a negative length gives the empty string. */
  function RandomCode(length: int, draw: nat -> AlphabetIndex): (r: string)
    ensures |r| == if length < 0 then 0 else length
    ensures forall k :: 0 <= k < |r| ==> r[k] == ALPHABET[draw(k)]
    ensures AllDigits(r, ALPHABET)
  {
    var n := if length < 0 then 0 else length;
    assert |ALPHABET| == 62;
    seq(n, k requires 0 <= k < n => ALPHABET[draw(k)])
  }

  /** The base-62 numeral of `n`. */
  function Base62(n: nat): (s: string)
    ensures AllDigits(s, ALPHABET) && |s| >= 1
  {
    AlphabetValid();
    Encode(n, ALPHABET)
  }

  /** `_int_to_base62`: repeated `divmod` by 62 collects the digits least
      significant first, then reverses them. */
  method IntToBase62(n: nat) returns (s: string)
    ensures s == Base62(n)
    ensures AllDigits(s, ALPHABET) && Decode(s, ALPHABET) == n
    ensures n == 0 ==> s == "0"
    ensures n > 0 ==> s[0] != '0'
  {
    AlphabetValid();
    DecodeEncode(n, ALPHABET);
    if n == 0 {
      return [ALPHABET[0]];
    }
    var chars: string := [];
    var m: nat := n;
    while m != 0
      invariant 0 < m ==> Base62(n) == Base62(m) + Reverse(chars)
      invariant m == 0 ==> Base62(n) == Reverse(chars)
      decreases m
    {
      var q: nat, r := m / 62, m % 62;
      ReverseSnoc(chars, ALPHABET[r]);
      chars := chars + [ALPHABET[r]];
      m := q;
    }
    s := Reverse(chars);
  }

  /** A SHA-256 digest read as a big-endian integer. */
  type Sha256Value = n: nat | n < 0x1_0000000000000000_0000000000000000_0000000000000000_0000000000000000

  /** `hash_code_from_file(path, length)`: the first `length` base-62 digits
      of the file's digest. */
  function HashCodeFromFile(digest: Sha256Value, length: int): (r: string)
    ensures r <= Base62(digest)
    ensures AllDigits(r, ALPHABET)
    ensures 0 <= length ==> |r| == if length < |Base62(digest)| then length else |Base62(digest)|
  {
    PyPrefix(Base62(digest), length)
  }

  /** The hash part's requested length, `max(4, code_len // 2)`; the divisor
      is positive, so Dafny's division is Python's floor division. */
  function HashLength(codeLen: int): (r: int)
    ensures 4 <= r
    ensures codeLen < 10 ==> r == 4
    ensures 8 <= codeLen ==> 2 * r <= codeLen < 2 * r + 2
  {
    if codeLen / 2 < 4 then 4 else codeLen / 2
  }

  /** The hash part, present when the mode names "hash" and the file exists
      (`fileDigest` is `None` when it does not). */
  function HashPart(fileDigest: Option<Sha256Value>, codeLen: int, mode: string): (r: Option<string>)
    ensures r.Some? <==> IsInfix("hash", mode) && fileDigest.Some?
    ensures r.Some? ==> r.value <= Base62(fileDigest.value) && r.value != []
    ensures r.Some? ==> |r.value| == if HashLength(codeLen) < |Base62(fileDigest.value)|
                                     then HashLength(codeLen) else |Base62(fileDigest.value)|
  {
    if IsInfix("hash", mode) && fileDigest.Some? then
      Some(HashCodeFromFile(fileDigest.value, HashLength(codeLen)))
    else None
  }

  /** The code of `build_safe_name`: the hash part, then a random part when
      the mode names "rand" or there is no hash part, cut to `code_len`. */
  function SafeCode(fileDigest: Option<Sha256Value>, draw: nat -> AlphabetIndex, codeLen: int, mode: string): (code: string)
    ensures AllDigits(code, ALPHABET)
    ensures 0 <= codeLen ==> |code| <= codeLen
    ensures 0 <= codeLen && (IsInfix("rand", mode) || HashPart(fileDigest, codeLen, mode).None?)
            ==> |code| == codeLen
  {
    var hash := HashPart(fileDigest, codeLen, mode);
    var hashed := if hash.Some? then hash.value else "";
    var random := if IsInfix("rand", mode) || hash.None? then RandomCode(codeLen - |hashed|, draw) else "";
    var joined := hashed + random;
    assert AllDigits(joined, ALPHABET);
    PyPrefix(joined, codeLen)
  }

  /** A character that is safe in a file name: an ASCII letter or digit, or
      a hyphen. */
  predicate IsSafeChar(c: char) {
    '0' <= c <= '9' || 'a' <= c <= 'z' || 'A' <= c <= 'Z' || c == '-'
  }

  /** Base-62 digits are safe characters, and none is a hyphen. */
  lemma AlphabetSafe(s: string)
    requires AllDigits(s, ALPHABET)
    ensures All(s, IsSafeChar) && '-' !in s
  {
    AlphabetValid();
    forall k | 0 <= k < |s|
      ensures IsSafeChar(s[k]) && s[k] != '-'
    {
      var j :| 0 <= j < |ALPHABET| && ALPHABET[j] == s[k];
      assert Rank62(ALPHABET[j]) == j;
    }
  }

  /** `build_safe_name(source, code_len, mode, include_slug)`: the lower-cased
      suffix is the extension; with `include_slug` the slug of the stem
      (never empty, so the `if slug` test is the flag itself) and a hyphen
      come first.  `normalize` is the first step of `_slugify`, NFKD with
      the combining marks dropped (so `café` becomes `cafe`); the rest of
      `_slugify` is `Slugify`.  Everything before the extension is safe,
      and a hyphen appears there exactly when the slug is included. */
  function BuildSafeName(source: Path, normalize: string -> string, fileDigest: Option<Sha256Value>,
                         draw: nat -> AlphabetIndex, codeLen: int, mode: string, includeSlug: bool): (r: string)
    ensures EndsWith(r, SafeCode(fileDigest, draw, codeLen, mode) + Lower(Suffix(source.name)))
    ensures includeSlug ==> StartsWith(r, Slugify(normalize(Stem(source.name)), 32) + "-")
    ensures All(r[..|r| - |Suffix(source.name)|], IsSafeChar)
    ensures includeSlug <==> '-' in r[..|r| - |Suffix(source.name)|]
    ensures 0 <= codeLen ==>
      |r| <= (if includeSlug then 33 else 0) + codeLen + |Suffix(source.name)|
    ensures |r| == (if includeSlug then |Slugify(normalize(Stem(source.name)), 32)| + 1 else 0)
                   + |SafeCode(fileDigest, draw, codeLen, mode)| + |Suffix(source.name)|
  {
    var ext := Lower(Suffix(source.name));
    var slug := if includeSlug then Slugify(normalize(Stem(source.name)), 32) else "";
    var code := SafeCode(fileDigest, draw, codeLen, mode);
    AlphabetSafe(code);
    if slug != "" then
      SlugFirstShape(slug, code, ext);
      slug + "-" + code + ext
    else
      CodeOnlyShape(code, ext);
      code + ext
  }

  lemma SlugFirstShape(slug: string, code: string, ext: string)
    requires slug != [] && All(slug, IsSlugChar)
    requires All(code, IsSafeChar) && '-' !in code
    ensures var r := slug + "-" + code + ext;
      r[..|r| - |ext|] == slug + "-" + code
      && All(slug + "-" + code, IsSafeChar) && '-' in slug + "-" + code
      && EndsWith(r, code + ext) && StartsWith(r, slug + "-")
  {
    var r := slug + "-" + code + ext;
    var head := slug + "-" + code;
    assert r == head + ext;
    assert r[..|r| - |ext|] == head;
    assert head[|slug|] == '-';
    assert r[|r| - |code + ext|..] == code + ext;
    assert r[..|slug + "-"|] == slug + "-";
    forall k | 0 <= k < |head|
      ensures IsSafeChar(head[k])
    {
      if k < |slug| {
        assert head[k] == slug[k];
      } else if k > |slug| {
        assert head[k] == code[k - |slug| - 1];
      }
    }
  }

  lemma CodeOnlyShape(code: string, ext: string)
    ensures var r := code + ext;
      r[..|r| - |ext|] == code && EndsWith(r, code + ext)
  {
    var r := code + ext;
    assert r[..|r| - |ext|] == code;
  }

  /** Without a hash part — the mode does not name "hash", or the file is
      missing — the code is exactly the random code. */
  lemma NoHashMeansRandom(fileDigest: Option<Sha256Value>, draw: nat -> AlphabetIndex, codeLen: int, mode: string)
    requires HashPart(fileDigest, codeLen, mode).None?
    ensures SafeCode(fileDigest, draw, codeLen, mode) == RandomCode(codeLen, draw)
  {
  }

  /** With a hash part the code starts with it (cut to `code_len`). */
  lemma HashPartLeads(digest: Sha256Value, draw: nat -> AlphabetIndex, codeLen: int, mode: string)
    requires IsInfix("hash", mode) && 0 <= codeLen
    ensures PyPrefix(HashCodeFromFile(digest, HashLength(codeLen)), codeLen) <= SafeCode(Some(digest), draw, codeLen, mode)
  {
    var hashed := HashCodeFromFile(digest, HashLength(codeLen));
    assert HashPart(Some(digest), codeLen, mode) == Some(hashed);
    var random := if IsInfix("rand", mode) then RandomCode(codeLen - |hashed|, draw) else "";
    assert SafeCode(Some(digest), draw, codeLen, mode) == PyPrefix(hashed + random, codeLen);
    PyPrefixMonotone(hashed, hashed + random, codeLen);
  }

  /** Mode "hash" without "rand" and the file present: the code is only the
      hash part, `max(4, code_len // 2)` digits (fewer if the numeral is
      shorter), and never longer than `code_len`. */
  lemma HashOnlyLength(digest: Sha256Value, draw: nat -> AlphabetIndex, codeLen: int, mode: string)
    requires IsInfix("hash", mode) && !IsInfix("rand", mode) && 0 <= codeLen
    ensures var n := |Base62(digest)|;
      |SafeCode(Some(digest), draw, codeLen, mode)|
      == Min(codeLen, Min(HashLength(codeLen), n))
  {
  }

  function Min(a: int, b: int): int { if a < b then a else b }

  /** Mode "hash" without "rand": the same file gives the same name whatever
      the random source does. */
  lemma HashModeIsDeterministic(source: Path, normalize: string -> string, digest: Sha256Value, draw1: nat -> AlphabetIndex,
                                draw2: nat -> AlphabetIndex, codeLen: int, mode: string, includeSlug: bool)
    requires IsInfix("hash", mode) && !IsInfix("rand", mode)
    ensures BuildSafeName(source, normalize, Some(digest), draw1, codeLen, mode, includeSlug)
         == BuildSafeName(source, normalize, Some(digest), draw2, codeLen, mode, includeSlug)
  {
  }
}

=== FILE: text.dfy ===
/** Models of the Python and JavaScript string built-ins the core relies on:
    character classes, lower-casing, slicing, stripping, filtering and the
    run-replacing regular-expression substitutions.  Strings are `seq<char>`. */
module Text {

  /** Python's `str.isspace`, which is also what `\s` matches in a `str`
      regular expression. */
  predicate IsSpace(c: char) {
    var n := c as int;
    (9 <= n <= 13) || (28 <= n <= 32) || n == 0x85 || n == 0xA0 || n == 0x1680
    || (0x2000 <= n <= 0x200A) || n == 0x2028 || n == 0x2029 || n == 0x202F
    || n == 0x205F || n == 0x3000
  }

  predicate IsHyphen(c: char) { c == '-' }

  predicate IsUpperAscii(c: char) { 'A' <= c <= 'Z' }

  /** Lower-casing of one character; only ASCII letters change. */
  function LowerChar(c: char): char {
    if IsUpperAscii(c) then (c as int + 32) as char else c
  }

  /** `s.lower()` / `s.toLowerCase()` restricted to ASCII letters. */
  function Lower(s: string): (r: string)
    ensures |r| == |s|
    ensures forall k :: 0 <= k < |s| ==> r[k] == LowerChar(s[k])
  {
    seq(|s|, k requires 0 <= k < |s| => LowerChar(s[k]))
  }

  /** Every character of `s` satisfies `P`. */
  predicate All(s: string, P: char -> bool) {
    forall k :: 0 <= k < |s| ==> P(s[k])
  }

  /** No two neighbouring characters of `s` both satisfy `P`. */
  predicate NoAdjacent(s: string, P: char -> bool) {
    forall k :: 0 <= k < |s| - 1 && P(s[k]) ==> !P(s[k + 1])
  }

  predicate StartsWith(s: string, prefix: string) {
    |prefix| <= |s| && s[..|prefix|] == prefix
  }

  predicate EndsWith(s: string, suffix: string) {
    |suffix| <= |s| && s[|s| - |suffix|..] == suffix
  }

  /** Python's `needle in hay` for strings. */
  predicate IsInfix(needle: string, hay: string)
    decreases |hay|
  {
    StartsWith(hay, needle) || (hay != [] && IsInfix(needle, hay[1..]))
  }

  /** Python's `s[:k]`, including the negative `k` that counts from the end. */
  function PyPrefix(s: string, k: int): (r: string)
    ensures r <= s
    ensures 0 <= k ==> |r| == if k < |s| then k else |s|
    ensures k < 0 ==> |r| == if |s| + k < 0 then 0 else |s| + k
    ensures 0 <= k <= |s| ==> r == s[..k]
  {
    if 0 <= k then (if k < |s| then s[..k] else s)
    else if |s| + k < 0 then []
    else s[..|s| + k]
  }

  /** Cutting keeps the prefix order. */
  lemma PyPrefixMonotone(a: string, b: string, k: int)
    requires a <= b && 0 <= k
    ensures PyPrefix(a, k) <= PyPrefix(b, k)
  {
  }

  /** The characters of `s` that satisfy `P`, in order (a filtering join,
      or a regular-expression substitution of the complement by ""). */
  function Keep(s: string, P: char -> bool): (r: string)
    ensures |r| <= |s|
    ensures All(r, P)
    ensures All(s, P) ==> r == s
  {
    if s == [] then [] else (if P(s[0]) then [s[0]] else []) + Keep(s[1..], P)
  }

  lemma {:induction false} KeepAppend(a: string, b: string, P: char -> bool)
    ensures Keep(a + b, P) == Keep(a, P) + Keep(b, P)
  {
    if a == [] {
      assert a + b == b;
    } else {
      var head := if P(a[0]) then [a[0]] else [];
      assert (a + b)[0] == a[0];
      assert (a + b)[1..] == a[1..] + b;
      assert Keep(a + b, P) == head + Keep(a[1..] + b, P);
      KeepAppend(a[1..], b, P);
    }
  }

  /** Keeping the `Q` characters of what `P` kept is keeping the `Q`
      characters, when every `Q` character is also a `P` character. */
  lemma {:induction false} KeepKeep(s: string, P: char -> bool, Q: char -> bool)
    requires forall c :: Q(c) ==> P(c)
    ensures Keep(Keep(s, P), Q) == Keep(s, Q)
  {
    if s != [] {
      KeepKeep(s[1..], P, Q);
      KeepAppend(if P(s[0]) then [s[0]] else [], Keep(s[1..], P), Q);
    }
  }

  /** `s` without its leading run of `P` characters. */
  function TrimStart(s: string, P: char -> bool): (r: string)
    ensures |r| <= |s|
    ensures s != [] && P(s[0]) ==> |r| < |s|
    ensures r == s[|s| - |r|..]
    ensures r == [] || !P(r[0])
    ensures forall k :: 0 <= k < |s| - |r| ==> P(s[k])
  {
    if s != [] && P(s[0]) then
      var r := TrimStart(s[1..], P);
      assert forall k :: 1 <= k < |s| ==> s[k] == s[1..][k - 1];
      r
    else s
  }

  /** `s` without its trailing run of `P` characters. */
  function TrimEnd(s: string, P: char -> bool): (r: string)
    ensures |r| <= |s|
    ensures r == s[..|r|]
    ensures r == [] || !P(r[|r| - 1])
    ensures forall k :: |r| <= k < |s| ==> P(s[k])
  {
    if s != [] && P(s[|s| - 1]) then TrimEnd(s[..|s| - 1], P) else s
  }

  /** Python's `s.strip(chars)`: both ends lose their runs of `P`
      characters and nothing else changes. */
  function Strip(s: string, P: char -> bool): (r: string)
    ensures r == [] || (!P(r[0]) && !P(r[|r| - 1]))
    ensures |r| <= |s|
  {
    TrimEnd(TrimStart(s, P), P)
  }

  /** Python's `s.strip()`. */
  function StripSpace(s: string): string {
    Strip(s, IsSpace)
  }

  /** `re.sub("[P]+", c, s)`: every maximal run of `P` characters is
      replaced by the single character `c`. */
  function SubRuns(s: string, P: char -> bool, c: char): (r: string)
    ensures forall k :: 0 <= k < |r| && P(r[k]) ==> r[k] == c
    ensures forall k :: 0 <= k < |r| ==> r[k] == c || r[k] in s
    ensures s == [] <==> r == []
    ensures s != [] ==> r[0] == (if P(s[0]) then c else s[0])
    ensures s != [] ==> r[|r| - 1] == (if P(s[|s| - 1]) then c else s[|s| - 1])
    ensures NoAdjacent(r, P)
    decreases |s|
  {
    if s == [] then []
    else if P(s[0]) then
      var t := TrimStart(s, P);
      var rest := SubRuns(t, P, c);
      SuffixMembers(s, |s| - |t|);
      ConsRuns(c, rest, P, c, s);
      [c] + rest
    else
      var rest := SubRuns(s[1..], P, c);
      SuffixMembers(s, 1);
      ConsRuns(s[0], rest, P, c, s);
      [s[0]] + rest
  }

  /** Putting `x` in front of a run-replaced string keeps it run-replaced. */
  lemma ConsRuns(x: char, rest: string, P: char -> bool, c: char, s: string)
    requires P(x) ==> x == c
    requires x == c || x in s
    requires forall k :: 0 <= k < |rest| && P(rest[k]) ==> rest[k] == c
    requires forall k :: 0 <= k < |rest| ==> rest[k] == c || rest[k] in s
    requires NoAdjacent(rest, P) && (rest == [] || !P(x) || !P(rest[0]))
    ensures var r := [x] + rest;
      (forall k :: 0 <= k < |r| && P(r[k]) ==> r[k] == c)
      && (forall k :: 0 <= k < |r| ==> r[k] == c || r[k] in s)
      && NoAdjacent(r, P)
  {
    var r := [x] + rest;
    assert forall k :: 1 <= k < |r| ==> r[k] == rest[k - 1];
  }

  /** Every character of a suffix occurs in the whole string. */
  lemma SuffixMembers(s: string, i: nat)
    requires i <= |s|
    ensures forall x :: x in s[i..] ==> x in s
  {
  }

  /** Dropping or collapsing runs of `P` characters leaves the `Q`
      characters alone when no `Q` character is a `P` character. */
  lemma {:induction false} KeepTrimStart(s: string, P: char -> bool, Q: char -> bool)
    requires forall x :: Q(x) ==> !P(x)
    ensures Keep(TrimStart(s, P), Q) == Keep(s, Q)
  {
    if s != [] && P(s[0]) {
      KeepTrimStart(s[1..], P, Q);
    }
  }

  lemma {:induction false} KeepTrimEnd(s: string, P: char -> bool, Q: char -> bool)
    requires forall x :: Q(x) ==> !P(x)
    ensures Keep(TrimEnd(s, P), Q) == Keep(s, Q)
  {
    if s != [] && P(s[|s| - 1]) {
      var init := s[..|s| - 1];
      KeepTrimEnd(init, P, Q);
      assert s == init + [s[|s| - 1]];
      KeepAppend(init, [s[|s| - 1]], Q);
      assert Keep([s[|s| - 1]], Q) == [];
    }
  }

  lemma KeepStrip(s: string, P: char -> bool, Q: char -> bool)
    requires forall x :: Q(x) ==> !P(x)
    ensures Keep(Strip(s, P), Q) == Keep(s, Q)
  {
    KeepTrimStart(s, P, Q);
    KeepTrimEnd(TrimStart(s, P), P, Q);
  }

  lemma {:induction false} KeepSubRuns(s: string, P: char -> bool, c: char, Q: char -> bool)
    requires forall x :: Q(x) ==> !P(x)
    requires !Q(c)
    ensures Keep(SubRuns(s, P, c), Q) == Keep(s, Q)
    decreases |s|
  {
    if s == [] {
    } else if P(s[0]) {
      KeepSubRuns(TrimStart(s, P), P, c, Q);
      KeepAppend([c], SubRuns(TrimStart(s, P), P, c), Q);
      KeepTrimStart(s, P, Q);
    } else {
      KeepSubRuns(s[1..], P, c, Q);
      KeepAppend([s[0]], SubRuns(s[1..], P, c), Q);
    }
  }

  /** A string whose `P` characters are already single `c`s is left as it is. */
  lemma {:induction false} SubRunsFixed(s: string, P: char -> bool, c: char)
    requires NoAdjacent(s, P)
    requires forall k :: 0 <= k < |s| && P(s[k]) ==> s[k] == c
    ensures SubRuns(s, P, c) == s
    decreases |s|
  {
    if s != [] {
      var t := s[1..];
      FixedTail(s, P, c);
      SubRunsFixed(t, P, c);
      if P(s[0]) {
        TrimStartOfRun(s, P);
        SubRunsAtRun(s, P, c);
      } else {
        SubRunsAtOther(s, P, c);
      }
      assert s == [s[0]] + t;
    }
  }

  /** The tail of a string whose `P` characters are single `c`s is one too. */
  lemma FixedTail(s: string, P: char -> bool, c: char)
    requires s != [] && NoAdjacent(s, P)
    requires forall k :: 0 <= k < |s| && P(s[k]) ==> s[k] == c
    ensures NoAdjacent(s[1..], P)
    ensures forall k :: 0 <= k < |s[1..]| && P(s[1..][k]) ==> s[1..][k] == c
  {
    var t := s[1..];
    assert forall k :: 0 <= k < |t| ==> t[k] == s[k + 1];
  }

  /** A single leading `P` character is all `TrimStart` removes. */
  lemma TrimStartOfRun(s: string, P: char -> bool)
    requires s != [] && P(s[0]) && NoAdjacent(s, P)
    ensures TrimStart(s, P) == s[1..]
  {
    assert |s| > 1 ==> !P(s[1]);
  }





  lemma StripFixed(s: string, P: char -> bool)
    requires s == [] || (!P(s[0]) && !P(s[|s| - 1]))
    ensures Strip(s, P) == s
  {
  }

  /** A slice of a string keeps the properties `All` and `NoAdjacent`. */
  lemma SliceKeeps(s: string, i: int, j: int, P: char -> bool)
    requires 0 <= i <= j <= |s|
    ensures All(s, P) ==> All(s[i..j], P)
    ensures NoAdjacent(s, P) ==> NoAdjacent(s[i..j], P)
  {
    var t := s[i..j];
    assert forall k :: 0 <= k < |t| ==> t[k] == s[i + k];
  }

  /** Stripping keeps the properties `All` and `NoAdjacent`. */
  lemma StripKeeps(s: string, P: char -> bool, Q: char -> bool)
    ensures All(s, Q) ==> All(Strip(s, P), Q)
    ensures NoAdjacent(s, Q) ==> NoAdjacent(Strip(s, P), Q)
  {
    var t := TrimStart(s, P);
    SliceKeeps(s, |s| - |t|, |s|, Q);
    SliceKeeps(t, 0, |TrimEnd(t, P)|, Q);
  }

  /** Python's `reversed` joined back into a string. */
  function Reverse(s: string): (r: string)
    ensures |r| == |s|
    ensures forall k :: 0 <= k < |s| ==> r[k] == s[|s| - 1 - k]
  {
    if s == [] then [] else Reverse(s[1..]) + [s[0]]
  }

  lemma ReverseSnoc(s: string, c: char)
    ensures Reverse(s + [c]) == [c] + Reverse(s)
  {
  }

  /** Trimming a run of `P` characters from the front of `sep + b` leaves
      `b` when `b` does not start with a `P` character. */
  lemma TrimStartBefore(sep: string, b: string, P: char -> bool)
    requires All(sep, P)
    requires b == [] || !P(b[0])
    ensures TrimStart(sep + b, P) == b
  {
    var s := sep + b;
    var r := TrimStart(s, P);
    assert b != [] ==> s[|sep|] == b[0];
    assert r == s[|sep|..];
  }

  /** One step of `SubRuns` at a leading `P` character. */
  lemma SubRunsAtRun(s: string, P: char -> bool, c: char)
    requires s != [] && P(s[0])
    ensures SubRuns(s, P, c) == [c] + SubRuns(TrimStart(s, P), P, c)
  {
  }

  /** One step of `SubRuns` at a leading character that is not `P`. */
  lemma SubRunsAtOther(s: string, P: char -> bool, c: char)
    requires s != [] && !P(s[0])
    ensures SubRuns(s, P, c) == [s[0]] + SubRuns(s[1..], P, c)
  {
  }

  /** Regrouping `a + m + b` around the first character of a non-empty `a`. */
  lemma Regroup3(a: string, m: string, b: string)
    requires a != []
    ensures (a + m + b)[0] == a[0] && (a + m + b)[1..] == a[1..] + m + b
    ensures a + m + b == [a[0]] + (a[1..] + m + b)
  {
  }

  /** A leading run of `P` characters before a part free of them becomes `c`. */
  lemma SubRunsRunFirst(sep: string, b: string, P: char -> bool, c: char)
    requires sep != [] && All(sep, P)
    requires forall k :: 0 <= k < |b| ==> !P(b[k])
    ensures SubRuns(sep + b, P, c) == [c] + b
  {
    SubRunsAtRun(sep + b, P, c);
    TrimStartBefore(sep, b, P);
    SubRunsFixed(b, P, c);
  }

  /** `re.sub` turns a non-empty run of `P` characters between two parts
      free of `P` characters into the single character `c`. */
  lemma {:induction false} SubRunsJoin(a: string, sep: string, b: string, P: char -> bool, c: char)
    requires forall k :: 0 <= k < |a| ==> !P(a[k])
    requires sep != [] && All(sep, P)
    requires forall k :: 0 <= k < |b| ==> !P(b[k])
    ensures SubRuns(a + sep + b, P, c) == a + [c] + b
    decreases |a|
  {
    if a == [] {
      assert a + sep + b == sep + b;
      SubRunsRunFirst(sep, b, P, c);
    } else {
      Regroup3(a, sep, b);
      SubRunsAtOther(a + sep + b, P, c);
      SubRunsJoin(a[1..], sep, b, P, c);
      Regroup3(a, [c], b);
    }
  }
}

=== FILE: utils.dfy ===
/** `ensure_unique_filename`: the filesystem is the finite set of paths that
    exist.  A free path is returned as it is; a taken one is renamed to
    `stem(i)suffix` in the same directory for the least `i >= 1` that is
    free. */
module Utils {
  import opened Wrappers
  import opened Paths
  import opened Numerals

  /** A path taken apart once, as the resolver does before its loop: the
      directory, the stem and the suffix of the name. */
  datatype Split = Split(dir: string, stem: string, suffix: string)

  function SplitOf(p: Path): (sp: Split)
    ensures sp.dir == p.dir && sp.stem + sp.suffix == p.name
  {
    StemSuffixSplit(p.name);
    Split(p.dir, Stem(p.name), Suffix(p.name))
  }

  /** The path tried for counter `i`: `path.with_name(f"{stem}({i}){suffix}")`.
      It stays in the directory, keeps the stem and the suffix at its two
      ends, and carries the counter's decimal digits in parentheses. */
  function Candidate(sp: Split, i: nat): (c: Path)
    ensures c.dir == sp.dir
    ensures sp.stem + "(" <= c.name
    ensures |c.name| == |sp.stem| + |Decimal(i)| + 2 + |sp.suffix|
    ensures c.name[|sp.stem| + 1 + |Decimal(i)|..] == ")" + sp.suffix
  {
    Path(sp.dir, sp.stem + "(" + Decimal(i) + ")" + sp.suffix)
  }

  /** Every counter below `i` (from 1) names a path that exists. */
  predicate TakenBelow(sp: Split, existing: set<Path>, i: nat) {
    forall j :: 1 <= j < i ==> Candidate(sp, j) in existing
  }

  /** `i` is the least counter whose candidate is free. */
  predicate IsLeastFree(sp: Split, existing: set<Path>, i: nat) {
    1 <= i && Candidate(sp, i) !in existing && TakenBelow(sp, existing, i)
  }

  /** Equal strings with equal surroundings have equal middles. */
  lemma MiddleInjective(pre: string, x: string, y: string, post: string)
    requires pre + x + post == pre + y + post
    ensures x == y
  {
    var u, v := pre + x + post, pre + y + post;
    assert |x| == |y|;
    assert u[|pre|..|pre| + |x|] == x;
    assert v[|pre|..|pre| + |y|] == y;
  }

  /** The counter is recoverable from a name framed as `stem(i)suffix`. */
  lemma FramedInjective(stem: string, suffix: string, i: nat, j: nat)
    requires stem + "(" + Decimal(i) + ")" + suffix == stem + "(" + Decimal(j) + ")" + suffix
    ensures i == j
  {
    var pre, post := stem + "(", ")" + suffix;
    assert stem + "(" + Decimal(i) + ")" + suffix == pre + Decimal(i) + post;
    assert stem + "(" + Decimal(j) + ")" + suffix == pre + Decimal(j) + post;
    MiddleInjective(pre, Decimal(i), Decimal(j), post);
    DecimalInjective(i, j);
  }

  /** Different counters give different candidates. */
  lemma CandidateInjective(sp: Split, i: nat, j: nat)
    ensures Candidate(sp, i) == Candidate(sp, j) ==> i == j
  {
    if Candidate(sp, i) == Candidate(sp, j) {
      FramedInjective(sp.stem, sp.suffix, i, j);
    }
  }

  /** If counters 1..k are all taken, at least k paths exist: this bounds
      the search and so makes it terminate. */
  lemma {:induction false} TakenBounded(sp: Split, existing: set<Path>, k: nat)
    requires TakenBelow(sp, existing, k + 1)
    ensures k <= |existing|
  {
    if k > 0 {
      var top := Candidate(sp, k);
      var rest := existing - {top};
      forall j | 1 <= j < k
        ensures Candidate(sp, j) in rest
      {
        CandidateInjective(sp, j, k);
      }
      TakenBounded(sp, rest, k - 1);
    }
  }

  /** The least free counter from `i` on, given that all below `i` are taken. */
  function FirstFreeFrom(sp: Split, existing: set<Path>, i: nat): (k: nat)
    requires 1 <= i && TakenBelow(sp, existing, i)
    ensures IsLeastFree(sp, existing, k)
    ensures i <= k <= |existing| + 1
    decreases |existing| + 1 - i
  {
    TakenBounded(sp, existing, i - 1);
    if Candidate(sp, i) !in existing then i
    else
      TakenBelowStep(sp, existing, i);
      FirstFreeFrom(sp, existing, i + 1)
  }

  lemma TakenBelowStep(sp: Split, existing: set<Path>, i: nat)
    requires TakenBelow(sp, existing, i) && Candidate(sp, i) in existing
    ensures TakenBelow(sp, existing, i + 1)
  {
    forall j | 1 <= j < i + 1
      ensures Candidate(sp, j) in existing
    {
      if j < i {
        assert Candidate(sp, j) in existing;
      }
    }
  }

  lemma LeastFreeUnique(sp: Split, existing: set<Path>, i: nat, j: nat)
    requires IsLeastFree(sp, existing, i) && IsLeastFree(sp, existing, j)
    ensures i == j
  {
  }

  /** The resolver as a function.  Renaming a path that exists needs a
      non-empty name (`with_name` raises on an empty one). */
  function UniqueFilename(p: Path, existing: set<Path>): (r: Path)
    requires p in existing ==> p.name != ""
    ensures r !in existing
    ensures r.dir == p.dir
    ensures p !in existing ==> r == p
    ensures p in existing ==>
      exists i :: IsLeastFree(SplitOf(p), existing, i) && r == Candidate(SplitOf(p), i)
  {
    if p !in existing then p
    else
      var i := FirstFreeFrom(SplitOf(p), existing, 1);
      Candidate(SplitOf(p), i)
  }

  /** The resolver's `while True` loop, counting up from 1.  An existing
      path with an empty name (such as `.`) makes `with_name` raise
      `ValueError`: that outcome is `None`. */
  method EnsureUniqueFilename(p: Path, existing: set<Path>) returns (r: Option<Path>)
    ensures r.None? <==> p in existing && p.name == ""
    ensures r.Some? ==> r.value !in existing && r.value.dir == p.dir
    ensures r.Some? ==> r.value == UniqueFilename(p, existing)
  {
    if p !in existing {
      return Some(p);
    }
    if p.name == "" {
      return None;
    }
    var sp := SplitOf(p);
    var i: nat := 1;
    while true
      invariant 1 <= i <= |existing| + 1
      invariant TakenBelow(sp, existing, i)
      decreases |existing| + 1 - i
    {
      var newPath := Candidate(sp, i);
      if newPath !in existing {
        LeastFreeUnique(sp, existing, i, FirstFreeFrom(sp, existing, 1));
        return Some(newPath);
      }
      TakenBelowStep(sp, existing, i);
      TakenBounded(sp, existing, i);
      i := i + 1;
    }
  }

  /** Any least free counter is the one the resolver picks. */
  lemma ResolvesTo(p: Path, existing: set<Path>, k: nat)
    requires p in existing && p.name != ""
    requires IsLeastFree(SplitOf(p), existing, k)
    ensures UniqueFilename(p, existing) == Candidate(SplitOf(p), k)
  {
    LeastFreeUnique(SplitOf(p), existing, k, FirstFreeFrom(SplitOf(p), existing, 1));
  }

  /** A name `a.b`, with no dot in `b`, splits into stem `a` and suffix `.b`. */
  lemma SplitOfDotted(dir: string, a: string, b: string)
    requires a != [] && b != [] && '.' !in b
    ensures SplitOf(Path(dir, a + "." + b)) == Split(dir, a, "." + b)
  {
    SplitAtLastDot(a, b);
  }

  lemma PhotoCandidates(dir: string)
    ensures Candidate(Split(dir, "photo", ".png"), 1) == Path(dir, "photo(1).png")
    ensures Candidate(Split(dir, "photo", ".png"), 2) == Path(dir, "photo(2).png")
  {
    DecimalDigit(1);
    DecimalDigit(2);
    assert Decimal(1) == "1" && Decimal(2) == "2";
    assert "photo" + "(" + "1" + ")" + ".png" == "photo(1).png";
    assert "photo" + "(" + "2" + ")" + ".png" == "photo(2).png";
  }

  /** `photo.png` splits into `photo` and `.png`. */
  lemma PhotoSplit(dir: string)
    ensures SplitOf(Path(dir, "photo.png")) == Split(dir, "photo", ".png")
  {
    var png := "png";
    assert png[0] == 'p' && png[1] == 'n' && png[2] == 'g';
    assert "photo.png" == "photo" + "." + png;
    assert "." + png == ".png";
    SplitOfDotted(dir, "photo", png);
  }

  /** With `photo.png` taken the result is `photo(1).png`; with that taken
      too it is `photo(2).png`. */
  lemma PhotoExample(dir: string)
    ensures UniqueFilename(Path(dir, "photo.png"), {Path(dir, "photo.png")})
         == Path(dir, "photo(1).png")
    ensures UniqueFilename(Path(dir, "photo.png"), {Path(dir, "photo.png"), Path(dir, "photo(1).png")})
         == Path(dir, "photo(2).png")
  {
    var p := Path(dir, "photo.png");
    var sp := Split(dir, "photo", ".png");
    PhotoSplit(dir);
    PhotoCandidates(dir);
    var c1, c2 := Path(dir, "photo(1).png"), Path(dir, "photo(2).png");
    assert |p.name| == 9 && |c1.name| == 12 && c1.name[6] == '1' && c2.name[6] == '2';
    assert IsLeastFree(sp, {p}, 1);
    ResolvesTo(p, {p}, 1);
    assert TakenBelow(sp, {p, c1}, 2);
    assert IsLeastFree(sp, {p, c1}, 2);
    ResolvesTo(p, {p, c1}, 2);
  }
}

=== FILE: wrappers.dfy ===
/** The optional value used where the source has `None` / `null`. */
module Wrappers {

  datatype Option<+T> = None | Some(value: T)
}
